=== FILE: README.md ===
# Ionic discover: the service-announcement publisher

A Dafny model of the publisher in `@ionic/discover`. The publisher makes a process discoverable on its local network segments. Once started, it sends a UDP datagram to the broadcast address of every local IPv4 broadcast domain, and repeats this every 2000 ms. The datagram is the prefix `ION_DP` followed by the JSON text of a record: time, id, namespace, name, host, interface address, service port, optional communication port, and path `/`.

The model has five modules:

- `Ipv4` (`ipv4.dfy`) is `computeBroadcastAddress`. It reads and writes dotted-quad text over four `bv8` octets. A netmask is accepted only if its one bits are contiguous. The broadcast address is the address OR NOT the mask, i.e. every host bit set (RFC 919, RFC 922, RFC 950).
- `Interfaces` (`interfaces.dfy`) is `prepareInterfaces`, the pipeline from the operating system's interface table to the list of targets:
  - the seedless `reduce` that concatenates the per-name lists;
  - the IPv4 filter;
  - the broadcast computation;
  - the `Set`-based filter that keeps the first interface of each broadcast address.

  Each step is a recursive function. Its reference definition or characterising lemmas sit beside it.
- `Announce` (`announce.dfy`) is the announcement record. A JSON object is an ordered list of members. An undefined `commPort` is left out, as `JSON.stringify` leaves it out. The payload is the prefix and that object. A receiver's reading of it is proved to give the record back.
- `Discover` (`publisher.dfy`) is the `Publisher` class and `newSilentPublisher`. The class keeps the source's mutable fields: `running`, `interfaces`, `client` and `timer`. It also has three logs:
  - `resources`: sockets created, bound and closed; broadcast enabled; intervals set and cleared;
  - `sent`: datagrams handed to the socket;
  - `errors`: errors emitted on the `'error'` channel.

  The socket's `'listening'` event, the timer's tick and the socket's `'error'` event are methods of their own. `start` only creates and binds the socket; the first announcement and the timer come with `'listening'`. The `for` loop of `sayHello` is the method `SendRound`. It is proved against the specification functions `TickSends` and `TickErrors`.
- `Decimal` (`decimal.dfy`) is decimal text of integers, for octets and for the `name@port` template.

The environment is passed in as parameters:
- `Date.now` is a `clock` that gives the time of each send of a tick;
- `os.hostname()` is `host`;
- `os.networkInterfaces()` is the interface table passed to `Start`;
- the id drawn by `Math.random` is passed to the constructor;
- how the socket treats each send is a `fate`: it delivers it, reports an error to the send callback later, or throws at the call.

Three behaviours of the code the model keeps:

- `start` sets `running` before it resolves the interfaces. If `prepareInterfaces` throws, the promise rejects. That happens for an empty interface table, an address or netmask that is not a dotted quad, or a netmask whose one bits are not contiguous. It also happens for the model's /31 and /32 case (see "## Left out"). The publisher is then left running with no socket, and every later `start` resolves at once without doing anything until `stop`. So the lifecycle invariant is: running implies a socket, unless the interfaces could not be resolved (`Discover.Publisher.Valid`).
- A failed `bind` does not reject `start`. The code never calls `reject` for it. The socket's `'error'` event re-emits the failure on the publisher's error channel (`OnClientError`), and `running` stays true.
- `stop` never clears `interfaces`. A publisher started again reuses the list resolved the first time and does not look at the interface table again.

## Model

| member | source | states |
|---|---|---|
| Decimal.IntToString | packages/@ionic/discover/src/publisher.ts:170 | the text of a port in a template literal starts with '-' exactly when the port is negative, the rest are digits with no leading zero (except "0" itself), and those digits read back as the port's magnitude |
| Decimal.ToDecimalCanonical | packages/@ionic/discover/src/publisher.ts:170 | the decimal text of a number has no leading zero, and starts with '0' exactly for 0 |
| Decimal.CanonicalUnique | packages/@ionic/discover/src/publisher.ts:170 | digits without a leading zero are exactly the decimal text of their value, so a number has one such text |
| Decimal.IntToStringExact | packages/@ionic/discover/src/publisher.ts:170 | any text meeting the contract of `IntToString` is the text it returns: "07" is not the text of 7 |
| Decimal.DecimalRoundTrip | packages/@ionic/discover/src/publisher.ts:184-189 | reading back the decimal text of a number gives the number |
| Ipv4.ParseFormat | packages/@ionic/discover/src/publisher.ts:184-189 | reading back the dotted-quad text of an address gives the address |
| Ipv4.PrefixLength | packages/@ionic/discover/src/publisher.ts:186 | a netmask has a prefix length exactly when it is one of the 33 contiguous masks, and then it is the mask of that length |
| Ipv4.PrefixMaskInjective | packages/@ionic/discover/src/publisher.ts:186 | distinct prefix lengths give distinct netmasks |
| Ipv4.PrefixLengthOfMask | packages/@ionic/discover/src/publisher.ts:186 | the prefix length of the mask of length p is p |
| Ipv4.Broadcast | packages/@ionic/discover/src/publisher.ts:188 | address OR NOT mask keeps the network bits of the address and sets every host bit |
| Ipv4.ComputeBroadcastAddressSpec | packages/@ionic/discover/src/publisher.ts:184-189 | the contract of `ComputeBroadcastAddress`: it fails exactly on an unreadable address, an unreadable or non-contiguous netmask, or a /31 or /32 block; otherwise its text is the dotted quad of address OR NOT netmask, and reads back as that address |
| Ipv4.FormatQuadCanonical | packages/@ionic/discover/src/publisher.ts:188 | a formatted address has four octets, none written with a leading zero |
| Ipv4.FormatQuadExact | packages/@ionic/discover/src/publisher.ts:188 | a dotted quad without leading zeros that reads as an address is the formatted text of that address |
| Ipv4.FormatQuadInjective | packages/@ionic/discover/src/publisher.ts:188 | two formatted addresses are the same text exactly when the addresses are equal |
| Ipv4.BroadcastOfBlock | packages/@ionic/discover/src/publisher.ts:184-189 | for every address and every prefix of at most 30 bits, the result exists, keeps the network part and has all host bits set |
| Ipv4.BroadcastTwice | packages/@ionic/discover/src/publisher.ts:188 | setting the host bits of a broadcast address again changes nothing |
| Ipv4.BroadcastIdempotent | packages/@ionic/discover/src/publisher.ts:184-189 | the broadcast address of a broadcast address under the same netmask is itself |
| Ipv4.ExampleSlash24 | packages/@ionic/discover/src/publisher.ts:184-189 | 192.168.1.10 with 255.255.255.0 gives 192.168.1.255 |
| Ipv4.ExampleSlash30 | packages/@ionic/discover/src/publisher.ts:184-189 | 10.0.0.5 with 255.255.255.252 gives 10.0.0.7 |
| Interfaces.ReduceConcatAppends | packages/@ionic/discover/src/publisher.ts:150 | the left-fold concatenation equals the seed followed by all records, interface after interface |
| Interfaces.Flatten | packages/@ionic/discover/src/publisher.ts:148-150 | a table with no names throws (seedless reduce); any other table gives all its records in order, empty lists included |
| Interfaces.FilterIPv4 | packages/@ionic/discover/src/publisher.ts:151 | a record is kept exactly when it is in the input and its family is IPv4, and every IPv4 record is kept as many times as it occurs |
| Interfaces.FilterIPv4Order | packages/@ionic/discover/src/publisher.ts:151 | the kept records are in input order |
| Interfaces.FilterNoIPv4 | packages/@ionic/discover/src/publisher.ts:151 | a list with no IPv4 record filters to nothing |
| Interfaces.ResolveOne | packages/@ionic/discover/src/publisher.ts:152-157 | a record maps to its own address with its computed broadcast address, and throws exactly when that computation fails |
| Interfaces.ResolveBroadcasts | packages/@ionic/discover/src/publisher.ts:152-157 | on success, one target per record, position by position, each the record's address with its computed broadcast address |
| Interfaces.ResolveBroadcastsFails | packages/@ionic/discover/src/publisher.ts:152-157 | the map throws exactly when some record has no computable broadcast address |
| Interfaces.DedupOrder | packages/@ionic/discover/src/publisher.ts:158-166 | the set-based filter keeps elements in their order |
| Interfaces.DedupKeepsFirsts | packages/@ionic/discover/src/publisher.ts:158-166 | each kept element is the first with its broadcast address and was not yet in the set; kept broadcast addresses are pairwise distinct |
| Interfaces.DedupComplete | packages/@ionic/discover/src/publisher.ts:158-166 | the first element of every broadcast address not yet in the set is kept |
| Interfaces.DedupFirstOrder | packages/@ionic/discover/src/publisher.ts:158-166 | kept elements come in the order in which their broadcast addresses first occur in the input |
| Interfaces.DedupKeepsFirst | packages/@ionic/discover/src/publisher.ts:158-166 | the filter keeps exactly the first element of each broadcast address not yet seen, in the order of those first occurrences |
| Interfaces.DedupOneEntry | packages/@ionic/discover/src/publisher.ts:158-166 | every broadcast address among the targets appears exactly once in the result |
| Interfaces.PrepareInterfacesFails | packages/@ionic/discover/src/publisher.ts:145-167 | `PrepareInterfaces` (prepareInterfaces) throws exactly when the table has no names or some IPv4 record has no computable broadcast address |
| Interfaces.TargetFromRecord | packages/@ionic/discover/src/publisher.ts:148-157 | every target comes from an IPv4 record of the table and carries that record's computed broadcast address |
| Interfaces.RecordTarget | packages/@ionic/discover/src/publisher.ts:148-157 | every IPv4 record of the table has a target with its address and its computed broadcast address |
| Interfaces.PrepareInterfacesEntries | packages/@ionic/discover/src/publisher.ts:145-167 | each entry of `PrepareInterfaces` is an IPv4 record of the table with its computed broadcast address, and entries have pairwise-distinct broadcast addresses |
| Interfaces.PrepareInterfacesKeepsFirst | packages/@ionic/discover/src/publisher.ts:145-167 | the entries are exactly the first target of every broadcast address among the targets, ordered by where each broadcast address first occurs |
| Interfaces.AllIPv6YieldsNothing | packages/@ionic/discover/src/publisher.ts:148-151 | a non-empty table whose records are all IPv6 gives an empty list |
| Interfaces.SharedBroadcastCollapses | packages/@ionic/discover/src/publisher.ts:158-166 | records sharing a broadcast address give exactly one entry for it |
| Interfaces.SameSubnetOneEntry | packages/@ionic/discover/src/publisher.ts:152-166 | two IPv4 records whose address OR NOT netmask agree (e.g. 192.168.1.10/24 and 192.168.1.20/24) get the same broadcast text and exactly one entry for it |
| Interfaces.DistinctSubnetsTwoEntries | packages/@ionic/discover/src/publisher.ts:152-166 | two IPv4 records whose address OR NOT netmask differ get different broadcast texts, and each has an entry |
| Announce.EncodeMemberNames | packages/@ionic/discover/src/publisher.ts:98-110 | the record's members are t, id, nspace, name, host, ip, port, then commPort only when defined, then path |
| Announce.EncodedIdentity | packages/@ionic/discover/src/publisher.ts:98-110 | t, id, nspace and name read back from the encoded record as written |
| Announce.EncodedLocation | packages/@ionic/discover/src/publisher.ts:98-110 | host, ip, port and path read back as written; commPort reads back when defined and is absent otherwise |
| Announce.DecodeEncode | packages/@ionic/discover/src/publisher.ts:98-110 | decoding an encoded record gives the record back |
| Announce.ParseSerialize | packages/@ionic/discover/src/publisher.ts:110 | a receiver reads the record back from the prefixed payload |
| Discover.FirstThrow | packages/@ionic/discover/src/publisher.ts:126-141 | the loop stops at the first send that throws at the call, and at the end of the list when none does |
| Discover.SendErrorsPositions | packages/@ionic/discover/src/publisher.ts:126-138 | the error of a failed send is at the position given by the number of failed sends before it, and there is one error per failed send |
| Discover.SendErrorsReportFailures | packages/@ionic/discover/src/publisher.ts:133-137 | every send that fails in its callback emits its own error, placed after exactly the errors of the failed sends before it; every callback error belongs to such a send, and there are exactly as many errors as failed sends |
| Discover.FailuresDoNotStopSends | packages/@ionic/discover/src/publisher.ts:126-141 | whether sends fail in their callbacks does not change how many sends a tick makes |
| Discover.Publisher.constructor | packages/@ionic/discover/src/publisher.ts:33-46 | a new publisher keeps its namespace, name, port, commPort and id, is stopped, holds no socket, timer or interfaces, and satisfies the lifecycle invariant |
| Discover.Publisher.Create | packages/@ionic/discover/src/publisher.ts:41-45 | construction throws exactly when the name contains ':'; otherwise the publisher keeps its arguments, is stopped, and has no socket, timer, interfaces, log entries or handles created |
| Discover.Publisher.BuildMessageParses | packages/@ionic/discover/src/publisher.ts:96-111 | the contract of `BuildMessage`: the message carries the prefix ION_DP and reads back as the record whose ip is the argument, whose other fields are the publisher's and whose path is "/" |
| Discover.Publisher.AnnouncementsPerInterface | packages/@ionic/discover/src/publisher.ts:127-138 | one datagram per interface, in list order, to that interface's broadcast address on port 41234, announcing that interface's address |
| Discover.Publisher.ThrowingSendEndsTick | packages/@ionic/discover/src/publisher.ts:126-141 | a send that throws at the call ends the tick: the datagrams are exactly the announcements of the interfaces before it, and its exception is the last error in send order, after the callback errors of those sends |
| Discover.Publisher.NoThrowSendsAll | packages/@ionic/discover/src/publisher.ts:126-138 | when no send throws, the datagrams are the announcements of every interface and the errors are exactly the callback errors of the failed sends, one each, in send order |
| Discover.Publisher.OneFailedSendOfTwo | packages/@ionic/discover/src/publisher.ts:127-137 | with two interfaces and one send failing in its callback, both sends happen and exactly one error is emitted |
| Discover.Publisher.SendRound | packages/@ionic/discover/src/publisher.ts:126-141 | the loop sends exactly the tick's announcements and emits exactly the tick's errors |
| Discover.Publisher.SayHello | packages/@ionic/discover/src/publisher.ts:117-142 | throws and changes nothing without interfaces or without a socket; otherwise appends the tick's datagrams and errors and keeps the invariant |
| Discover.Publisher.Start | packages/@ionic/discover/src/publisher.ts:48-76 | running: resolves at once and changes nothing. Stopped: sets running, keeps an existing interface list or resolves one, and either creates and binds one fresh socket or rejects with no socket when resolution throws |
| Discover.Publisher.OnListening | packages/@ionic/discover/src/publisher.ts:66-72 | enables broadcast, sets one fresh 2000 ms interval, then announces once |
| Discover.Publisher.OnInterval | packages/@ionic/discover/src/publisher.ts:68 | each timer tick appends exactly one tick's datagrams and errors |
| Discover.Publisher.OnClientError | packages/@ionic/discover/src/publisher.ts:62-64 | a socket error is re-emitted on the publisher's channel and nothing else changes |
| Discover.Publisher.Stop | packages/@ionic/discover/src/publisher.ts:78-94 | stopped: changes nothing. Running: stops, clears the timer and then closes the socket, and leaves neither |
| Discover.SilentNameColon | packages/@ionic/discover/src/publisher.ts:170-171 | `name@port` contains ':' exactly when name does |
| Discover.NewSilentPublisher | packages/@ionic/discover/src/publisher.ts:169-182 | throws exactly when the caller's name contains ':'; otherwise returns a running publisher named `name@port` with no communication port, nothing sent and no timer, which has either resolved its interfaces and created and bound socket 0, or, when resolving throws, has no interfaces, no socket and no resource operations |

## Left out

- UDP I/O. `dgram` socket creation, bind, `setBroadcast`, send and close are entries in the resource and datagram logs. `Buffer` encoding and the byte length of the message are not modelled.
- `EventEmitter` dispatch. Listeners are not modelled, so the listener that `newSilentPublisher` attaches to silence errors does not appear; emitted errors are always recorded in the error log.
- Timing. `setInterval` timing, the order in which asynchronous send callbacks arrive, and interleavings of events are not modelled. A tick's errors are logged in send order. The model does not cover a `'listening'` event arriving after `stop`, or for a socket that has since been replaced.
- `Date.now`, `os.hostname()` and `os.networkInterfaces()` are parameters. The `Math.random` id is a parameter fixed at construction.
- The JSON text. A record is an ordered list of members; escaping and number formatting are not modelled.
- `debug` logging.
- Ipv4.ComputeBroadcastAddress: the `Netmask` library is not part of this model. The model reads addresses and netmasks strictly, as four decimal octets of one to three digits each. A netmask whose one bits are not contiguous is rejected. A /31 or /32 block gives `NoBroadcast`, for which the library's own result is unspecified here.
- Interfaces.PrepareInterfacesFails: a record whose netmask is a /31 or /32 block makes the whole resolver throw, and a `start` that resolves such a table rejects and leaves the publisher running with no socket. This is the model's choice for a block the source's visible text does not cover, not behaviour the source shows: `computeBroadcastAddress` only returns the library's `block.broadcast`.
- Discover.Publisher.OnListening: requires a socket and no timer. The event comes once, for the socket `start` just created. A second `'listening'` event is not modelled.
- Discover.NewSilentPublisher: the port is an integer written in plain decimal digits. A non-integer or non-finite port, and an integer of magnitude 10^21 or more (which the template literal writes in exponent form), are not modelled.
- The publicly assignable `interfaces` field is modelled only as the value `start` finds there.
- Discover.Publisher.Valid: `namespace`, `name`, `port` and `commPort` are public fields in the source (`packages/@ionic/discover/src/publisher.ts:34-37`) that callers may reassign after construction, and `buildMessage` reads them again on every tick. The model makes them constants, so reassignment by callers is not modelled. The invariant that `name` holds no ':' rests on that choice: the source checks it only in the constructor (`packages/@ionic/discover/src/publisher.ts:41`), so a caller who later assigns a name with ':' gets announcements carrying it.

=== FILE: announce.dfy ===
/**
 * The announcement message: the record `buildMessage` assembles and the
 * payload it becomes on the wire, the prefix "ION_DP" followed by the JSON
 * text of the record.
 */
module Announce {
  import opened Wrappers

  /** The fixed ASCII prefix of every announcement payload. */
  const Prefix: string := "ION_DP"

  /** The well-known discovery port every announcement is sent to. */
  const DiscoveryPort: int := 41234

  /** A JSON member value as the record uses them: numbers and strings. */
  datatype Json = Num(n: int) | Str(s: string)

  /** A JSON object as `JSON.stringify` writes it: its members in insertion order. */
  type JsonObject = seq<(string, Json)>

  /** The announcement record. */
  datatype Message = Message(
    t: int,                 // wall-clock time in milliseconds
    id: string,             // the publisher's id
    nspace: string,         // the publisher's namespace
    name: string,           // the publisher's name
    host: string,           // the system host name
    ip: string,             // the address of the interface the announcement leaves from
    port: int,              // the advertised service port
    commPort: Option<int>,  // the advertised communication port, when there is one
    path: string)           // always "/"

  /** A payload: the prefix followed by the JSON text of an object. */
  datatype Payload = Payload(prefix: string, json: JsonObject)

  /** The member names of a JSON object, in order. */
  function Keys(o: JsonObject): seq<string> {
    seq(|o|, i requires 0 <= i < |o| => o[i].0)
  }

  /** The record's members in declaration order; an undefined `commPort` is omitted. */
  function Encode(m: Message): JsonObject {
    [("t", Num(m.t)), ("id", Str(m.id)), ("nspace", Str(m.nspace)), ("name", Str(m.name)),
     ("host", Str(m.host)), ("ip", Str(m.ip)), ("port", Num(m.port))]
    + (if m.commPort.Some? then [("commPort", Num(m.commPort.value))] else [])
    + [("path", Str(m.path))]
  }

  /** The value of the first member named `key`. */
  function Lookup(o: JsonObject, key: string): Option<Json>
    decreases |o|
  {
    if o == [] then None else if o[0].0 == key then Some(o[0].1) else Lookup(o[1..], key)
  }

  lemma {:induction false} LookupFirst(o: JsonObject, key: string, i: nat)
    requires i < |o| && o[i].0 == key
    requires forall j | 0 <= j < i :: o[j].0 != key
    ensures Lookup(o, key) == Some(o[i].1)
    decreases i
  {
    if i > 0 {
      LookupFirst(o[1..], key, i - 1);
    }
  }

  lemma {:induction false} LookupMissing(o: JsonObject, key: string)
    requires forall j | 0 <= j < |o| :: o[j].0 != key
    ensures Lookup(o, key) == None
    decreases |o|
  {
    if o != [] {
      LookupMissing(o[1..], key);
    }
  }

  function StrMember(o: JsonObject, key: string): Option<string> {
    match Lookup(o, key)
    case Some(Str(s)) => Some(s)
    case _ => None
  }

  function NumMember(o: JsonObject, key: string): Option<int> {
    match Lookup(o, key)
    case Some(Num(n)) => Some(n)
    case _ => None
  }

  /** Reads a record back from a JSON object, as a receiver does after `JSON.parse`. */
  function Decode(o: JsonObject): Option<Message> {
    var t, id, nspace, name := NumMember(o, "t"), StrMember(o, "id"), StrMember(o, "nspace"), StrMember(o, "name");
    var host, ip, port, path := StrMember(o, "host"), StrMember(o, "ip"), NumMember(o, "port"), StrMember(o, "path");
    var commPort := Lookup(o, "commPort");
    if t.Some? && id.Some? && nspace.Some? && name.Some? && host.Some? && ip.Some? && port.Some? && path.Some?
       && (commPort.None? || commPort.value.Num?)
    then Some(Message(t.value, id.value, nspace.value, name.value, host.value, ip.value, port.value,
                      if commPort.Some? then Some(commPort.value.n) else None, path.value))
    else None
  }

  /** `JSON.stringify` writes the members in declaration order and leaves out an undefined `commPort`. */
  lemma EncodeMemberNames(m: Message)
    ensures Keys(Encode(m)) == ["t", "id", "nspace", "name", "host", "ip", "port"]
                               + (if m.commPort.Some? then ["commPort"] else []) + ["path"]
  {
  }

  /** The identifying members of an encoded record come back as written. */
  lemma EncodedIdentity(m: Message)
    ensures NumMember(Encode(m), "t") == Some(m.t)
    ensures StrMember(Encode(m), "id") == Some(m.id)
    ensures StrMember(Encode(m), "nspace") == Some(m.nspace)
    ensures StrMember(Encode(m), "name") == Some(m.name)
  {
    var o := Encode(m);
    LookupFirst(o, "t", 0);
    LookupFirst(o, "id", 1);
    LookupFirst(o, "nspace", 2);
    LookupFirst(o, "name", 3);
  }

  /** The location members of an encoded record come back as written, `commPort` absent when undefined. */
  lemma EncodedLocation(m: Message)
    ensures StrMember(Encode(m), "host") == Some(m.host)
    ensures StrMember(Encode(m), "ip") == Some(m.ip)
    ensures NumMember(Encode(m), "port") == Some(m.port)
    ensures StrMember(Encode(m), "path") == Some(m.path)
    ensures m.commPort.None? ==> Lookup(Encode(m), "commPort") == None
    ensures m.commPort.Some? ==> Lookup(Encode(m), "commPort") == Some(Num(m.commPort.value))
  {
    var o := Encode(m);
    LookupFirst(o, "host", 4);
    LookupFirst(o, "ip", 5);
    LookupFirst(o, "port", 6);
    LookupFirst(o, "path", |o| - 1);
    if m.commPort.Some? {
      LookupFirst(o, "commPort", 7);
    } else {
      LookupMissing(o, "commPort");
    }
  }

  /** Decoding an encoded record gives the record back, `commPort` included or absent. */
  lemma DecodeEncode(m: Message)
    ensures Decode(Encode(m)) == Some(m)
  {
    EncodedIdentity(m);
    EncodedLocation(m);
  }

  /** The wire form of a record: the prefix, then its JSON text. */
  function Serialize(m: Message): Payload {
    Payload(Prefix, Encode(m))
  }

  /** What a receiver reads from a payload: the record, when the prefix is "ION_DP". */
  function Parse(p: Payload): Option<Message> {
    if p.prefix == Prefix then Decode(p.json) else None
  }

  /** Parsing a serialised record gives the record back. */
  lemma ParseSerialize(m: Message)
    ensures Parse(Serialize(m)) == Some(m)
  {
    DecodeEncode(m);
  }
}

=== FILE: decimal.dfy ===
/**
 * Decimal text of numbers, as JavaScript's `Number.prototype.toString(10)`
 * writes integers of magnitude below 10^21 (larger ones it writes in
 * exponent form, which this module does not model).
 */
module Decimal {

  predicate IsDigit(c: char) {
    '0' <= c <= '9'
  }

  predicate AllDigits(s: string) {
    forall i | 0 <= i < |s| :: IsDigit(s[i])
  }

  function DigitChar(d: nat): (c: char)
    requires d < 10
    ensures IsDigit(c)
  {
    ('0' as int + d) as char
  }

  function DigitValue(c: char): nat
    requires IsDigit(c)
  {
    c as int - '0' as int
  }

  /** The shortest decimal text of `n`. */
  function ToDecimal(n: nat): (s: string)
    ensures 1 <= |s|
    ensures AllDigits(s)
    decreases n
  {
    if n < 10 then [DigitChar(n)] else ToDecimal(n / 10) + [DigitChar(n % 10)]
  }

  /** The value of a string of decimal digits, read most significant digit first. */
  function DecimalValue(s: string): nat
    requires AllDigits(s)
    decreases |s|
  {
    if s == [] then 0 else 10 * DecimalValue(s[..|s| - 1]) + DigitValue(s[|s| - 1])
  }

  /** Reading back the text `ToDecimal` writes gives the number it was written from. */
  lemma {:induction false} DecimalRoundTrip(n: nat)
    ensures DecimalValue(ToDecimal(n)) == n
    decreases n
  {
    var s := ToDecimal(n);
    if n >= 10 {
      DecimalRoundTrip(n / 10);
      assert s[..|s| - 1] == ToDecimal(n / 10);
    }
  }

  /** Numbers below 1000 need at most three digits. */
  lemma {:induction false} DecimalLength(n: nat)
    ensures n < 10 ==> |ToDecimal(n)| == 1
    ensures n < 1000 ==> |ToDecimal(n)| <= 3
    decreases n
  {
    if n >= 10 {
      DecimalLength(n / 10);
    }
  }

  /** Digits with no leading zero, except for "0" itself. */
  predicate Canonical(s: string) {
    1 <= |s| && AllDigits(s) && (s[0] == '0' ==> |s| == 1)
  }

  /** `ToDecimal` writes no leading zero: its first digit is '0' only for 0. */
  lemma {:induction false} ToDecimalCanonical(n: nat)
    ensures Canonical(ToDecimal(n))
    ensures ToDecimal(n)[0] == '0' <==> n == 0
    decreases n
  {
    if n >= 10 {
      ToDecimalCanonical(n / 10);
    }
  }

  /** Digits that do not start with '0' are worth at least 1. */
  lemma {:induction false} LeadingDigitPositive(s: string)
    requires 1 <= |s| && AllDigits(s) && s[0] != '0'
    ensures DecimalValue(s) >= 1
    decreases |s|
  {
    if |s| > 1 {
      LeadingDigitPositive(s[..|s| - 1]);
    }
  }

  /** A number has exactly one canonical decimal text: the one `ToDecimal` writes. */
  lemma {:induction false} CanonicalUnique(s: string)
    requires Canonical(s)
    ensures s == ToDecimal(DecimalValue(s))
    decreases |s|
  {
    var n := DecimalValue(s);
    if |s| > 1 {
      var init := s[..|s| - 1];
      assert init[0] == s[0];
      assert Canonical(init);
      CanonicalUnique(init);
      LeadingDigitPositive(init);
      assert n / 10 == DecimalValue(init) && n % 10 == DigitValue(s[|s| - 1]);
      assert s == init + [s[|s| - 1]];
    }
  }

  /**
   * Template-literal text of an integer: a minus sign exactly for a negative
   * number, followed by the decimal digits of its magnitude, with no leading zero.
   */
  function IntToString(i: int): (s: string)
    ensures 1 <= |s|
    ensures s[0] == '-' <==> i < 0
    ensures forall k | 0 < k < |s| :: IsDigit(s[k])
    ensures i < 0 ==> 2 <= |s| && Canonical(s[1..]) && DecimalValue(s[1..]) == -i
    ensures i >= 0 ==> Canonical(s) && DecimalValue(s) == i
  {
    if i < 0 then
      var digits := ToDecimal(-i);
      DecimalRoundTrip(-i);
      ToDecimalCanonical(-i);
      assert ("-" + digits)[1..] == digits;
      "-" + digits
    else
      DecimalRoundTrip(i);
      ToDecimalCanonical(i);
      ToDecimal(i)
  }

  /** The contract of `IntToString` fixes its text: any text meeting it is that text. */
  lemma IntToStringExact(i: int, t: string)
    requires i >= 0 ==> Canonical(t) && DecimalValue(t) == i
    requires i < 0 ==> 2 <= |t| && t[0] == '-' && Canonical(t[1..]) && DecimalValue(t[1..]) == -i
    ensures t == IntToString(i)
  {
    if i < 0 {
      CanonicalUnique(t[1..]);
      assert t == "-" + t[1..];
    } else {
      CanonicalUnique(t);
    }
  }
}

=== FILE: interfaces.dfy ===
/**
 * The interface resolver, `prepareInterfaces`: from the operating system's
 * interface table to the list of (address, broadcast) targets, one per
 * broadcast domain, in enumeration order.
 */
module Interfaces {
  import opened Wrappers
  import opened Ipv4

  /** One address record of `os.networkInterfaces()`: its family, address and netmask text. */
  datatype NetworkInterfaceInfo = NetworkInterfaceInfo(family: string, address: string, netmask: string)

  /** The interface table: each interface name with its address records, in key enumeration order. */
  type InterfaceTable = seq<(string, seq<NetworkInterfaceInfo>)>

  /** A target of the announcer: a local address and the broadcast address of its subnet. */
  datatype Interface = Interface(address: string, broadcast: string)

  /** What `prepareInterfaces` throws. */
  datatype ResolveError =
    | EmptyReduce                                                  // `reduce` of an empty array with no initial value
    | BadBlock(address: string, netmask: string, cause: BlockError) // `new Netmask(...)` gave no broadcast address

  predicate IsIPv4(rec: NetworkInterfaceInfo) {
    rec.family == "IPv4"
  }

  /** `r` is `xs` with some elements left out, the rest kept in order. */
  ghost predicate IsSubsequence<T>(r: seq<T>, xs: seq<T>)
    decreases |xs|
  {
    if r == [] then true
    else if xs == [] then false
    else (r[0] == xs[0] && IsSubsequence(r[1..], xs[1..])) || IsSubsequence(r, xs[1..])
  }

  // ---------------------------------------------------------------- flatten

  /** All records of the table, interface after interface (reference definition). */
  function AllRecords(table: InterfaceTable): seq<NetworkInterfaceInfo>
    decreases |table|
  {
    if table == [] then [] else table[0].1 + AllRecords(table[1..])
  }

  /** `rest.reduce((prev, current) => prev.concat(current), acc)`, a left fold. */
  function ReduceConcat(acc: seq<NetworkInterfaceInfo>, rest: InterfaceTable): seq<NetworkInterfaceInfo>
    decreases |rest|
  {
    if rest == [] then acc else ReduceConcat(acc + rest[0].1, rest[1..])
  }

  lemma {:induction false} ReduceConcatAppends(acc: seq<NetworkInterfaceInfo>, rest: InterfaceTable)
    ensures ReduceConcat(acc, rest) == acc + AllRecords(rest)
    decreases |rest|
  {
    if rest != [] {
      ReduceConcatAppends(acc + rest[0].1, rest[1..]);
      assert acc + rest[0].1 + AllRecords(rest[1..]) == acc + (rest[0].1 + AllRecords(rest[1..]));
    }
  }

  /**
   * The per-name lists concatenated with a seedless `reduce`: an empty table
   * throws, a table of empty lists does not.
   */
  function Flatten(table: InterfaceTable): (r: Result<seq<NetworkInterfaceInfo>, ResolveError>)
    ensures table == [] ==> r == Failure(EmptyReduce)
    ensures table != [] ==> r == Success(AllRecords(table))
  {
    if table == [] then Failure(EmptyReduce)
    else
      ReduceConcatAppends(table[0].1, table[1..]);
      Success(ReduceConcat(table[0].1, table[1..]))
  }

  // ---------------------------------------------------------------- filter and map

  /** `.filter(iface => iface.family === 'IPv4')` */
  function FilterIPv4(recs: seq<NetworkInterfaceInfo>): (r: seq<NetworkInterfaceInfo>)
    ensures forall x :: x in r <==> x in recs && IsIPv4(x)
    ensures forall x :: multiset(r)[x] == if IsIPv4(x) then multiset(recs)[x] else 0
    decreases |recs|
  {
    if recs == [] then []
    else
      assert recs == [recs[0]] + recs[1..];
      if IsIPv4(recs[0]) then [recs[0]] + FilterIPv4(recs[1..])
      else FilterIPv4(recs[1..])
  }

  lemma {:induction false} FilterIPv4Order(recs: seq<NetworkInterfaceInfo>)
    ensures IsSubsequence(FilterIPv4(recs), recs)
    decreases |recs|
  {
    if recs != [] {
      FilterIPv4Order(recs[1..]);
      var r := FilterIPv4(recs);
      if IsIPv4(recs[0]) {
        assert r[1..] == FilterIPv4(recs[1..]);
      }
    }
  }

  /**
   * `iface => ({ address: iface.address, broadcast: computeBroadcastAddress(iface.address, iface.netmask) })`,
   * where a failed computation throws.
   */
  function ResolveOne(rec: NetworkInterfaceInfo): (r: Result<Interface, ResolveError>)
    ensures r.Success? <==> ComputeBroadcastAddress(rec.address, rec.netmask).Success?
    ensures r.Success? ==>
      r.value.address == rec.address && ComputeBroadcastAddress(rec.address, rec.netmask) == Success(r.value.broadcast)
  {
    match ComputeBroadcastAddress(rec.address, rec.netmask)
    case Failure(e) => Failure(BadBlock(rec.address, rec.netmask, e))
    case Success(b) => Success(Interface(rec.address, b))
  }

  /** `.map(...)` with `ResolveOne`: the first record that fails throws. */
  function ResolveBroadcasts(recs: seq<NetworkInterfaceInfo>): (r: Result<seq<Interface>, ResolveError>)
    ensures r.Success? ==> |r.value| == |recs|
    ensures r.Success? ==> forall j | 0 <= j < |recs| :: ResolveOne(recs[j]) == Success(r.value[j])
    decreases |recs|
  {
    if recs == [] then Success([])
    else
      match ResolveOne(recs[0])
      case Failure(e) => Failure(e)
      case Success(t) =>
        match ResolveBroadcasts(recs[1..])
        case Failure(e) => Failure(e)
        case Success(rest) => Success([t] + rest)
  }

  /** The map throws exactly when some record has no computable broadcast address. */
  lemma {:induction false} ResolveBroadcastsFails(recs: seq<NetworkInterfaceInfo>)
    ensures ResolveBroadcasts(recs).Failure? <==>
      exists j | 0 <= j < |recs| :: ComputeBroadcastAddress(recs[j].address, recs[j].netmask).Failure?
    decreases |recs|
  {
    if recs != [] && ComputeBroadcastAddress(recs[0].address, recs[0].netmask).Success? {
      var tail := recs[1..];
      ResolveBroadcastsFails(tail);
      if exists j | 0 <= j < |recs| :: ComputeBroadcastAddress(recs[j].address, recs[j].netmask).Failure? {
        var j :| 0 <= j < |recs| && ComputeBroadcastAddress(recs[j].address, recs[j].netmask).Failure?;
        assert recs[j] == tail[j - 1];
      }
      if ResolveBroadcasts(tail).Failure? {
        var j :| 0 <= j < |tail| && ComputeBroadcastAddress(tail[j].address, tail[j].netmask).Failure?;
        assert tail[j] == recs[j + 1];
      }
    }
  }

  // ---------------------------------------------------------------- deduplicate

  /** The first element of `xs` whose broadcast address is `b`. */
  function FirstWith(xs: seq<Interface>, b: string): (r: Option<Interface>)
    ensures r.Some? ==> r.value in xs && r.value.broadcast == b
    ensures r.None? <==> forall j | 0 <= j < |xs| :: xs[j].broadcast != b
    decreases |xs|
  {
    if xs == [] then None
    else if xs[0].broadcast == b then Some(xs[0])
    else FirstWith(xs[1..], b)
  }

  /** The position of the first element of `xs` whose broadcast address is `b`, or `|xs|`. */
  function FirstIndex(xs: seq<Interface>, b: string): (k: nat)
    ensures k <= |xs|
    ensures forall j | 0 <= j < k :: xs[j].broadcast != b
    ensures k < |xs| ==> xs[k].broadcast == b
    decreases |xs|
  {
    if xs == [] then 0
    else if xs[0].broadcast == b then 0
    else 1 + FirstIndex(xs[1..], b)
  }

  /**
   * `.filter(iface => { if (!set.has(iface.broadcast)) { set.add(iface.broadcast); return true; } return false; })`
   * where `seen` is the content of the set before `xs` is filtered.
   */
  function Dedup(xs: seq<Interface>, seen: set<string>): (r: seq<Interface>)
    ensures |r| <= |xs|
    decreases |xs|
  {
    if xs == [] then []
    else if xs[0].broadcast in seen then Dedup(xs[1..], seen)
    else [xs[0]] + Dedup(xs[1..], seen + {xs[0].broadcast})
  }

  /** The set-based filter keeps elements in their order. */
  lemma {:induction false} DedupOrder(xs: seq<Interface>, seen: set<string>)
    ensures IsSubsequence(Dedup(xs, seen), xs)
    decreases |xs|
  {
    if xs != [] {
      var x, rest := xs[0], xs[1..];
      if x.broadcast in seen {
        DedupOrder(rest, seen);
      } else {
        DedupOrder(rest, seen + {x.broadcast});
        var r := Dedup(xs, seen);
        assert r[0] == x && r[1..] == Dedup(rest, seen + {x.broadcast});
      }
    }
  }

  /**
   * Every kept element is the first of its broadcast address, which was not
   * yet seen, so no two kept elements share a broadcast address.
   */
  lemma {:induction false} DedupKeepsFirsts(xs: seq<Interface>, seen: set<string>)
    ensures forall i | 0 <= i < |Dedup(xs, seen)| ::
      Dedup(xs, seen)[i].broadcast !in seen && FirstWith(xs, Dedup(xs, seen)[i].broadcast) == Some(Dedup(xs, seen)[i])
    ensures forall i, j | 0 <= i < j < |Dedup(xs, seen)| :: Dedup(xs, seen)[i].broadcast != Dedup(xs, seen)[j].broadcast
    decreases |xs|
  {
    if xs != [] {
      var x, rest := xs[0], xs[1..];
      var r := Dedup(xs, seen);
      if x.broadcast in seen {
        DedupKeepsFirsts(rest, seen);
        assert r == Dedup(rest, seen);
        forall i | 0 <= i < |r| ensures r[i].broadcast !in seen && FirstWith(xs, r[i].broadcast) == Some(r[i]) {
          assert FirstWith(rest, r[i].broadcast) == Some(r[i]);
        }
      } else {
        var seen' := seen + {x.broadcast};
        DedupKeepsFirsts(rest, seen');
        var r' := Dedup(rest, seen');
        assert r == [x] + r';
        forall i | 0 <= i < |r| ensures r[i].broadcast !in seen && FirstWith(xs, r[i].broadcast) == Some(r[i]) {
          if i > 0 {
            assert r[i] == r'[i - 1];
            assert r[i].broadcast !in seen';
            assert FirstWith(rest, r[i].broadcast) == Some(r[i]);
          }
        }
        forall i, j | 0 <= i < j < |r| ensures r[i].broadcast != r[j].broadcast {
          assert r[j] == r'[j - 1];
          assert r[j].broadcast !in seen';
          if i > 0 {
            assert r[i] == r'[i - 1];
          }
        }
      }
    }
  }

  /** The first element of every broadcast address not yet seen is kept. */
  lemma {:induction false} DedupComplete(xs: seq<Interface>, seen: set<string>)
    ensures forall j | 0 <= j < |xs| && xs[j].broadcast !in seen :: FirstWith(xs, xs[j].broadcast).value in Dedup(xs, seen)
    decreases |xs|
  {
    if xs != [] {
      var x, rest := xs[0], xs[1..];
      var r := Dedup(xs, seen);
      if x.broadcast in seen {
        DedupComplete(rest, seen);
        forall j | 0 <= j < |xs| && xs[j].broadcast !in seen
          ensures FirstWith(xs, xs[j].broadcast).value in r
        {
          assert xs[j] == rest[j - 1];
        }
      } else {
        var seen' := seen + {x.broadcast};
        DedupComplete(rest, seen');
        assert r == [x] + Dedup(rest, seen');
        forall j | 0 <= j < |xs| && xs[j].broadcast !in seen
          ensures FirstWith(xs, xs[j].broadcast).value in r
        {
          if xs[j].broadcast != x.broadcast {
            assert xs[j] == rest[j - 1];
          }
        }
      }
    }
  }

  /**
   * Kept elements come in the order in which their broadcast addresses first
   * occur in the input.
   */
  lemma {:induction false} DedupFirstOrder(xs: seq<Interface>, seen: set<string>)
    ensures forall i, j | 0 <= i < j < |Dedup(xs, seen)| ::
      FirstIndex(xs, Dedup(xs, seen)[i].broadcast) < FirstIndex(xs, Dedup(xs, seen)[j].broadcast)
    decreases |xs|
  {
    if xs != [] {
      var x, rest := xs[0], xs[1..];
      var r := Dedup(xs, seen);
      if x.broadcast in seen {
        DedupFirstOrder(rest, seen);
        DedupKeepsFirsts(rest, seen);
        assert r == Dedup(rest, seen);
        forall i | 0 <= i < |r| ensures FirstIndex(xs, r[i].broadcast) == 1 + FirstIndex(rest, r[i].broadcast) {
          assert r[i].broadcast != x.broadcast;
        }
      } else {
        var seen' := seen + {x.broadcast};
        DedupFirstOrder(rest, seen');
        DedupKeepsFirsts(rest, seen');
        var r' := Dedup(rest, seen');
        assert r == [x] + r';
        forall i | 0 < i < |r| ensures FirstIndex(xs, r[i].broadcast) == 1 + FirstIndex(rest, r'[i - 1].broadcast) {
          assert r[i] == r'[i - 1];
          assert r'[i - 1].broadcast !in seen';
        }
      }
    }
  }

  /**
   * The set-based filter keeps exactly the first element of each broadcast
   * address not yet seen, in the order of those first occurrences.
   */
  lemma DedupKeepsFirst(xs: seq<Interface>, seen: set<string>)
    ensures var r := Dedup(xs, seen);
      && IsSubsequence(r, xs)
      && (forall i, j | 0 <= i < j < |r| :: r[i].broadcast != r[j].broadcast)
      && (forall i | 0 <= i < |r| :: r[i].broadcast !in seen && FirstWith(xs, r[i].broadcast) == Some(r[i]))
      && (forall j | 0 <= j < |xs| && xs[j].broadcast !in seen :: FirstWith(xs, xs[j].broadcast).value in r)
      && (forall i, j | 0 <= i < j < |r| :: FirstIndex(xs, r[i].broadcast) < FirstIndex(xs, r[j].broadcast))
  {
    DedupOrder(xs, seen);
    DedupKeepsFirsts(xs, seen);
    DedupComplete(xs, seen);
    DedupFirstOrder(xs, seen);
  }

  // ---------------------------------------------------------------- the pipeline

  /** `prepareInterfaces(interfaces)` */
  function PrepareInterfaces(table: InterfaceTable): Result<seq<Interface>, ResolveError> {
    match Flatten(table)
    case Failure(e) => Failure(e)
    case Success(recs) =>
      match ResolveBroadcasts(FilterIPv4(recs))
      case Failure(e) => Failure(e)
      case Success(targets) => Success(Dedup(targets, {}))
  }

  /** Every IPv4 record of the table as a target, before deduplication. */
  function Targets(table: InterfaceTable): Result<seq<Interface>, ResolveError> {
    ResolveBroadcasts(FilterIPv4(AllRecords(table)))
  }

  /**
   * `prepareInterfaces` throws exactly when the table has no interface names,
   * or when some IPv4 record has no computable broadcast address.
   */
  lemma PrepareInterfacesFails(table: InterfaceTable)
    ensures table == [] ==> PrepareInterfaces(table) == Failure(EmptyReduce)
    ensures PrepareInterfaces(table).Failure? <==>
      table == [] || exists rec | rec in AllRecords(table) && IsIPv4(rec) ::
                       ComputeBroadcastAddress(rec.address, rec.netmask).Failure?
  {
    if table != [] {
      var ipv4 := FilterIPv4(AllRecords(table));
      ResolveBroadcastsFails(ipv4);
      if exists rec | rec in AllRecords(table) && IsIPv4(rec) :: ComputeBroadcastAddress(rec.address, rec.netmask).Failure? {
        var rec :| rec in AllRecords(table) && IsIPv4(rec) && ComputeBroadcastAddress(rec.address, rec.netmask).Failure?;
        assert rec in ipv4;
        var j :| 0 <= j < |ipv4| && ipv4[j] == rec;
        assert ComputeBroadcastAddress(ipv4[j].address, ipv4[j].netmask).Failure?;
      }
      if ResolveBroadcasts(ipv4).Failure? {
        var j :| 0 <= j < |ipv4| && ComputeBroadcastAddress(ipv4[j].address, ipv4[j].netmask).Failure?;
        assert ipv4[j] in ipv4;
      }
    }
  }

  /** Each target comes from an IPv4 record of the table and carries that record's broadcast address. */
  lemma TargetFromRecord(table: InterfaceTable, t: Interface)
    requires Targets(table).Success? && t in Targets(table).value
    ensures exists rec | rec in AllRecords(table) ::
      IsIPv4(rec) && t.address == rec.address
      && ComputeBroadcastAddress(rec.address, rec.netmask) == Success(t.broadcast)
  {
    var ipv4 := FilterIPv4(AllRecords(table));
    var targets := Targets(table).value;
    var j :| 0 <= j < |targets| && targets[j] == t;
    var rec := ipv4[j];
    assert rec in ipv4;
    assert ComputeBroadcastAddress(rec.address, rec.netmask) == Success(t.broadcast);
  }

  lemma PrepareIsDedupOfTargets(table: InterfaceTable)
    requires PrepareInterfaces(table).Success?
    ensures Targets(table).Success?
    ensures PrepareInterfaces(table).value == Dedup(Targets(table).value, {})
  {
  }

  /**
   * Each entry of the result is an IPv4 record of the table with its computed
   * broadcast address, and no two entries share a broadcast address.
   */
  lemma PrepareInterfacesEntries(table: InterfaceTable)
    requires PrepareInterfaces(table).Success?
    ensures var r := PrepareInterfaces(table).value;
      && (forall i | 0 <= i < |r| :: exists rec | rec in AllRecords(table) ::
            IsIPv4(rec) && r[i].address == rec.address
            && ComputeBroadcastAddress(rec.address, rec.netmask) == Success(r[i].broadcast))
      && (forall i, j | 0 <= i < j < |r| :: r[i].broadcast != r[j].broadcast)
  {
    PrepareIsDedupOfTargets(table);
    var targets := Targets(table).value;
    var r := PrepareInterfaces(table).value;
    DedupKeepsFirst(targets, {});
    forall i | 0 <= i < |r| ensures exists rec | rec in AllRecords(table) ::
      IsIPv4(rec) && r[i].address == rec.address
      && ComputeBroadcastAddress(rec.address, rec.netmask) == Success(r[i].broadcast)
    {
      assert FirstWith(targets, r[i].broadcast) == Some(r[i]);
      TargetFromRecord(table, r[i]);
    }
  }

  /**
   * The result lists the targets in enumeration order, keeping for every
   * broadcast address the first IPv4 record that yields it.
   */
  lemma PrepareInterfacesKeepsFirst(table: InterfaceTable)
    requires PrepareInterfaces(table).Success?
    ensures Targets(table).Success?
    ensures var r, xs := PrepareInterfaces(table).value, Targets(table).value;
      && IsSubsequence(r, xs)
      && (forall i | 0 <= i < |r| :: FirstWith(xs, r[i].broadcast) == Some(r[i]))
      && (forall j | 0 <= j < |xs| :: FirstWith(xs, xs[j].broadcast).value in r)
      && (forall i, j | 0 <= i < j < |r| :: FirstIndex(xs, r[i].broadcast) < FirstIndex(xs, r[j].broadcast))
  {
    PrepareIsDedupOfTargets(table);
    DedupFromEmpty(Targets(table).value, PrepareInterfaces(table).value);
  }

  /** `DedupKeepsFirst` for a filter that starts from an empty set. */
  lemma DedupFromEmpty(xs: seq<Interface>, r: seq<Interface>)
    requires r == Dedup(xs, {})
    ensures IsSubsequence(r, xs)
    ensures forall i | 0 <= i < |r| :: FirstWith(xs, r[i].broadcast) == Some(r[i])
    ensures forall j | 0 <= j < |xs| :: FirstWith(xs, xs[j].broadcast).value in r
    ensures forall i, j | 0 <= i < j < |r| :: FirstIndex(xs, r[i].broadcast) < FirstIndex(xs, r[j].broadcast)
  {
    DedupKeepsFirst(xs, {});
  }

  /** Filtering a list with no IPv4 record leaves nothing. */
  lemma {:induction false} FilterNoIPv4(recs: seq<NetworkInterfaceInfo>)
    requires forall k | 0 <= k < |recs| :: !IsIPv4(recs[k])
    ensures FilterIPv4(recs) == []
    decreases |recs|
  {
    if recs != [] {
      FilterNoIPv4(recs[1..]);
    }
  }

  /** A table whose records are all IPv6 yields no targets. */
  lemma AllIPv6YieldsNothing(table: InterfaceTable)
    requires table != []
    requires forall rec | rec in AllRecords(table) :: rec.family == "IPv6"
    ensures PrepareInterfaces(table) == Success([])
  {
    var recs := AllRecords(table);
    forall k | 0 <= k < |recs| ensures !IsIPv4(recs[k]) {
      assert recs[k] in recs;
    }
    FilterNoIPv4(recs);
  }

  /** Every broadcast address among the targets is kept exactly once. */
  lemma DedupOneEntry(xs: seq<Interface>, j: nat)
    requires j < |xs|
    ensures var r := Dedup(xs, {});
      exists i | 0 <= i < |r| :: r[i].broadcast == xs[j].broadcast
        && forall k | 0 <= k < |r| && k != i :: r[k].broadcast != xs[j].broadcast
  {
    DedupKeepsFirst(xs, {});
    var r := Dedup(xs, {});
    var i :| 0 <= i < |r| && r[i] == FirstWith(xs, xs[j].broadcast).value;
    forall k | 0 <= k < |r| && k != i ensures r[k].broadcast != xs[j].broadcast {
      if k < i {
        assert r[k].broadcast != r[i].broadcast;
      } else {
        assert r[i].broadcast != r[k].broadcast;
      }
    }
  }

  /** IPv4 records sharing a broadcast address give exactly one entry for it. */
  lemma SharedBroadcastCollapses(table: InterfaceTable, b: string)
    requires PrepareInterfaces(table).Success?
    requires exists rec | rec in AllRecords(table) && IsIPv4(rec) ::
      ComputeBroadcastAddress(rec.address, rec.netmask) == Success(b)
    ensures var r := PrepareInterfaces(table).value;
      exists i | 0 <= i < |r| :: r[i].broadcast == b && forall k | 0 <= k < |r| && k != i :: r[k].broadcast != b
  {
    PrepareIsDedupOfTargets(table);
    var rec :| rec in AllRecords(table) && IsIPv4(rec) && ComputeBroadcastAddress(rec.address, rec.netmask) == Success(b);
    var j := RecordTarget(table, rec);
    DedupOneEntry(Targets(table).value, j);
  }

  /**
   * Two IPv4 records on the same subnet (their addresses OR NOT their netmasks
   * agree) get the same broadcast text, and the result holds exactly one entry
   * for it.
   */
  lemma SameSubnetOneEntry(table: InterfaceTable, r1: NetworkInterfaceInfo, r2: NetworkInterfaceInfo)
    requires PrepareInterfaces(table).Success?
    requires r1 in AllRecords(table) && IsIPv4(r1) && r2 in AllRecords(table) && IsIPv4(r2)
    requires ParseQuad(r1.address).Some? && ParseQuad(r1.netmask).Some?
    requires ParseQuad(r2.address).Some? && ParseQuad(r2.netmask).Some?
    requires Broadcast(ParseQuad(r1.address).value, ParseQuad(r1.netmask).value)
          == Broadcast(ParseQuad(r2.address).value, ParseQuad(r2.netmask).value)
    ensures ComputeBroadcastAddress(r1.address, r1.netmask).Success?
    ensures ComputeBroadcastAddress(r1.address, r1.netmask) == ComputeBroadcastAddress(r2.address, r2.netmask)
    ensures var r, b := PrepareInterfaces(table).value, ComputeBroadcastAddress(r1.address, r1.netmask).value;
      exists i | 0 <= i < |r| :: r[i].broadcast == b && forall k | 0 <= k < |r| && k != i :: r[k].broadcast != b
  {
    PrepareInterfacesFails(table);
    ComputeBroadcastAddressSpec(r1.address, r1.netmask);
    ComputeBroadcastAddressSpec(r2.address, r2.netmask);
    SharedBroadcastCollapses(table, ComputeBroadcastAddress(r1.address, r1.netmask).value);
  }

  /** Two IPv4 records on different subnets get different broadcast texts, each with an entry. */
  lemma DistinctSubnetsTwoEntries(table: InterfaceTable, r1: NetworkInterfaceInfo, r2: NetworkInterfaceInfo)
    requires PrepareInterfaces(table).Success?
    requires r1 in AllRecords(table) && IsIPv4(r1) && r2 in AllRecords(table) && IsIPv4(r2)
    requires ParseQuad(r1.address).Some? && ParseQuad(r1.netmask).Some?
    requires ParseQuad(r2.address).Some? && ParseQuad(r2.netmask).Some?
    requires Broadcast(ParseQuad(r1.address).value, ParseQuad(r1.netmask).value)
          != Broadcast(ParseQuad(r2.address).value, ParseQuad(r2.netmask).value)
    ensures ComputeBroadcastAddress(r1.address, r1.netmask).Success?
    ensures ComputeBroadcastAddress(r2.address, r2.netmask).Success?
    ensures ComputeBroadcastAddress(r1.address, r1.netmask).value != ComputeBroadcastAddress(r2.address, r2.netmask).value
    ensures var r := PrepareInterfaces(table).value;
      && (exists i | 0 <= i < |r| :: r[i].broadcast == ComputeBroadcastAddress(r1.address, r1.netmask).value)
      && (exists i | 0 <= i < |r| :: r[i].broadcast == ComputeBroadcastAddress(r2.address, r2.netmask).value)
  {
    PrepareInterfacesFails(table);
    ComputeBroadcastAddressSpec(r1.address, r1.netmask);
    ComputeBroadcastAddressSpec(r2.address, r2.netmask);
    FormatQuadInjective(Broadcast(ParseQuad(r1.address).value, ParseQuad(r1.netmask).value),
                        Broadcast(ParseQuad(r2.address).value, ParseQuad(r2.netmask).value));
    SharedBroadcastCollapses(table, ComputeBroadcastAddress(r1.address, r1.netmask).value);
    SharedBroadcastCollapses(table, ComputeBroadcastAddress(r2.address, r2.netmask).value);
  }

  /** Each IPv4 record of the table has a target at the same position of the filtered list. */
  lemma RecordTarget(table: InterfaceTable, rec: NetworkInterfaceInfo) returns (j: nat)
    requires Targets(table).Success?
    requires rec in AllRecords(table) && IsIPv4(rec)
    ensures j < |Targets(table).value|
    ensures Targets(table).value[j].address == rec.address
    ensures ComputeBroadcastAddress(rec.address, rec.netmask) == Success(Targets(table).value[j].broadcast)
  {
    var ipv4 := FilterIPv4(AllRecords(table));
    assert rec in ipv4;
    j :| 0 <= j < |ipv4| && ipv4[j] == rec;
  }
}

=== FILE: ipv4.dfy ===
/**
 * IPv4 dotted-quad text and subnet arithmetic, as `computeBroadcastAddress`
 * obtains it from a `Netmask` block: the broadcast address of a subnet has the
 * network bits of the address and every host bit set (RFC 919, RFC 922), the
 * netmask being a contiguous run of one bits (RFC 950).
 */
module Ipv4 {
  import opened Wrappers
  import opened Decimal

  /** An IPv4 address or netmask: four octets, most significant first. */
  datatype Quad = Quad(o0: bv8, o1: bv8, o2: bv8, o3: bv8)

  // ---------------------------------------------------------------- text

  /** The pieces of `s` between '.' separators (`s.split('.')`). */
  function SplitDots(s: string): (parts: seq<string>)
    ensures |parts| >= 1
    decreases |s|
  {
    if s == [] then [""]
    else
      var rest := SplitDots(s[1..]);
      if s[0] == '.' then [""] + rest else [[s[0]] + rest[0]] + rest[1..]
  }

  /** The pieces joined with '.' separators (`parts.join('.')`). */
  function JoinDots(parts: seq<string>): string
    requires |parts| >= 1
    decreases |parts|
  {
    if |parts| == 1 then parts[0] else parts[0] + "." + JoinDots(parts[1..])
  }

  lemma {:induction false} SplitDotFree(p: string, s: string)
    requires '.' !in p
    ensures SplitDots(p + s) == [p + SplitDots(s)[0]] + SplitDots(s)[1..]
    decreases |p|
  {
    var split := SplitDots(s);
    if p == [] {
      assert p + s == s;
      assert p + split[0] == split[0];
      assert split == [split[0]] + split[1..];
    } else {
      var tail := p[1..];
      assert '.' !in tail by {
        assert forall i | 0 <= i < |tail| :: tail[i] == p[i + 1];
      }
      SplitDotFree(tail, s);
      var rest := SplitDots(tail + s);
      assert rest[0] == tail + split[0] && rest[1..] == split[1..];
      var whole := p + s;
      assert whole[0] == p[0] && whole[1..] == tail + s;
      assert SplitDots(whole) == [[p[0]] + rest[0]] + rest[1..];
      assert [p[0]] + (tail + split[0]) == p + split[0];
    }
  }

  /** Splitting undoes joining, provided no piece holds a '.'. */
  lemma {:induction false} SplitJoin(parts: seq<string>)
    requires |parts| >= 1
    requires forall k | 0 <= k < |parts| :: '.' !in parts[k]
    ensures SplitDots(JoinDots(parts)) == parts
    decreases |parts|
  {
    if |parts| == 1 {
      SplitDotFree(parts[0], "");
      assert parts[0] + "" == parts[0];
    } else {
      var tail := JoinDots(parts[1..]);
      SplitJoin(parts[1..]);
      assert ("." + tail)[1..] == tail;
      assert SplitDots("." + tail) == [""] + parts[1..];
      SplitDotFree(parts[0], "." + tail);
      assert parts[0] + "." + tail == parts[0] + ("." + tail);
      assert parts[0] + "" == parts[0];
      assert ([""] + parts[1..])[1..] == parts[1..];
      assert [parts[0]] + parts[1..] == parts;
    }
  }

  /** One octet of a dotted quad: one to three decimal digits worth at most 255. */
  predicate IsOctetText(t: string) {
    1 <= |t| <= 3 && AllDigits(t) && DecimalValue(t) <= 255
  }

  function OctetText(o: bv8): string {
    ToDecimal(o as nat)
  }

  function OctetOf(t: string): bv8
    requires IsOctetText(t)
  {
    DecimalValue(t) as bv8
  }

  /** The dotted-quad text of an address, e.g. "192.168.1.255". */
  function FormatQuad(q: Quad): string {
    JoinDots([OctetText(q.o0), OctetText(q.o1), OctetText(q.o2), OctetText(q.o3)])
  }

  /** Reads dotted-quad text; `None` for anything that is not four octets separated by dots. */
  function ParseQuad(s: string): Option<Quad> {
    var parts := SplitDots(s);
    if |parts| == 4 && IsOctetText(parts[0]) && IsOctetText(parts[1])
       && IsOctetText(parts[2]) && IsOctetText(parts[3])
    then Some(Quad(OctetOf(parts[0]), OctetOf(parts[1]), OctetOf(parts[2]), OctetOf(parts[3])))
    else None
  }

  lemma OctetTextIsOctet(o: bv8)
    ensures IsOctetText(OctetText(o))
    ensures OctetOf(OctetText(o)) == o
    ensures '.' !in OctetText(o)
  {
    DecimalRoundTrip(o as nat);
    DecimalLength(o as nat);
  }

  /** Reading back a formatted address gives the address. */
  lemma {:induction false} ParseFormat(q: Quad)
    ensures ParseQuad(FormatQuad(q)) == Some(q)
  {
    OctetTextIsOctet(q.o0);
    OctetTextIsOctet(q.o1);
    OctetTextIsOctet(q.o2);
    OctetTextIsOctet(q.o3);
    SplitJoin([OctetText(q.o0), OctetText(q.o1), OctetText(q.o2), OctetText(q.o3)]);
  }

  /** Joining undoes splitting. */
  lemma {:induction false} JoinSplit(s: string)
    ensures JoinDots(SplitDots(s)) == s
    decreases |s|
  {
    if s != [] {
      var rest := SplitDots(s[1..]);
      JoinSplit(s[1..]);
      if s[0] == '.' {
        assert ([""] + rest)[1..] == rest;
        assert s == "." + s[1..];
      } else if |rest| == 1 {
        assert s == [s[0]] + s[1..];
      } else {
        var parts := [[s[0]] + rest[0]] + rest[1..];
        assert parts[1..] == rest[1..];
        assert s == [s[0]] + s[1..];
        assert s[1..] == rest[0] + "." + JoinDots(rest[1..]);
      }
    }
  }

  /** Every octet of a formatted address is written without a leading zero. */
  lemma FormatQuadCanonical(q: Quad)
    ensures var parts := SplitDots(FormatQuad(q));
      |parts| == 4 && forall k | 0 <= k < 4 :: Canonical(parts[k])
  {
    OctetTextIsOctet(q.o0);
    OctetTextIsOctet(q.o1);
    OctetTextIsOctet(q.o2);
    OctetTextIsOctet(q.o3);
    SplitJoin([OctetText(q.o0), OctetText(q.o1), OctetText(q.o2), OctetText(q.o3)]);
    ToDecimalCanonical(q.o0 as nat);
    ToDecimalCanonical(q.o1 as nat);
    ToDecimalCanonical(q.o2 as nat);
    ToDecimalCanonical(q.o3 as nat);
  }

  lemma OctetTextExact(t: string)
    requires IsOctetText(t) && Canonical(t)
    ensures t == OctetText(OctetOf(t))
  {
    var n := DecimalValue(t);
    var o := n as bv8;
    OctetValue(n);
    assert OctetOf(t) == o;
    assert o as int == n;
    assert OctetText(o) == ToDecimal(n);
    CanonicalUnique(t);
  }

  lemma OctetValue(n: nat)
    requires n < 256
    ensures (n as bv8) as int == n
  {
    OctetModulo(n);
    SmallModulo(n);
  }

  lemma OctetModulo(n: nat)
    requires n < 256
    ensures (n as bv8) as int == n % 256
  {
  }

  lemma SmallModulo(n: nat)
    requires n < 256
    ensures n % 256 == n
  {
  }

  /**
   * An address has exactly one dotted-quad text without leading zeros, the one
   * `FormatQuad` writes; so two formatted addresses are equal exactly when the
   * addresses are.
   */
  lemma FormatQuadExact(t: string, q: Quad)
    requires ParseQuad(t) == Some(q)
    requires forall k | 0 <= k < |SplitDots(t)| :: Canonical(SplitDots(t)[k])
    ensures t == FormatQuad(q)
  {
    var parts := SplitDots(t);
    OctetTextExact(parts[0]);
    OctetTextExact(parts[1]);
    OctetTextExact(parts[2]);
    OctetTextExact(parts[3]);
    assert parts == [OctetText(q.o0), OctetText(q.o1), OctetText(q.o2), OctetText(q.o3)];
    JoinSplit(t);
  }

  /** Distinct addresses are formatted as distinct texts. */
  lemma FormatQuadInjective(p: Quad, q: Quad)
    ensures FormatQuad(p) == FormatQuad(q) <==> p == q
  {
    ParseFormat(p);
    ParseFormat(q);
  }

  // ---------------------------------------------------------------- masks

  /** One octet of a prefix mask whose leading `bits` bits are set (`bits` clamped to 0..8). */
  function MaskOctet(bits: int): bv8 {
    if bits <= 0 then 0x00
    else if bits == 1 then 0x80
    else if bits == 2 then 0xC0
    else if bits == 3 then 0xE0
    else if bits == 4 then 0xF0
    else if bits == 5 then 0xF8
    else if bits == 6 then 0xFC
    else if bits == 7 then 0xFE
    else 0xFF
  }

  /** The contiguous netmask with prefix length `p`: p one bits followed by 32 - p zero bits. */
  function PrefixMask(p: nat): Quad
    requires p <= 32
  {
    Quad(MaskOctet(p), MaskOctet(p - 8), MaskOctet(p - 16), MaskOctet(p - 24))
  }

  /** Distinct prefix lengths give distinct masks. */
  lemma {:induction false} PrefixMaskInjective(p: nat, q: nat)
    requires p <= 32 && q <= 32
    requires PrefixMask(p) == PrefixMask(q)
    ensures p == q
  {
  }

  function PrefixSearch(m: Quad, p: nat): (r: Option<nat>)
    requires p <= 33
    ensures r.Some? ==> p <= r.value <= 32 && PrefixMask(r.value) == m
    ensures r.None? ==> forall q | p <= q <= 32 :: PrefixMask(q) != m
    decreases 33 - p
  {
    if p == 33 then None
    else if PrefixMask(p) == m then Some(p)
    else PrefixSearch(m, p + 1)
  }

  /** The prefix length of a netmask; `None` when its one bits are not contiguous. */
  function PrefixLength(m: Quad): (r: Option<nat>)
    ensures r.Some? ==> r.value <= 32 && PrefixMask(r.value) == m
    ensures r.None? <==> forall p | 0 <= p <= 32 :: PrefixMask(p) != m
  {
    PrefixSearch(m, 0)
  }

  /** The prefix length of a prefix mask is that prefix. */
  lemma PrefixLengthOfMask(p: nat)
    requires p <= 32
    ensures PrefixLength(PrefixMask(p)) == Some(p)
  {
    var r := PrefixLength(PrefixMask(p));
    PrefixMaskInjective(r.value, p);
  }

  // ---------------------------------------------------------------- subnet arithmetic

  /** The network part of `a` under mask `m` (the host bits cleared). */
  function Network(a: Quad, m: Quad): Quad {
    Quad(a.o0 & m.o0, a.o1 & m.o1, a.o2 & m.o2, a.o3 & m.o3)
  }

  /** Every host bit of `b` under mask `m` is set. */
  predicate HostBitsSet(b: Quad, m: Quad) {
    b.o0 | m.o0 == 0xFF && b.o1 | m.o1 == 0xFF && b.o2 | m.o2 == 0xFF && b.o3 | m.o3 == 0xFF
  }

  lemma OctetBroadcast(x: bv8, m: bv8)
    ensures (x | !m) & m == x & m
    ensures (x | !m) | m == 0xFF
  {
  }

  /** The broadcast address of the subnet of `a`: address OR NOT netmask. */
  function Broadcast(a: Quad, m: Quad): (b: Quad)
    ensures Network(b, m) == Network(a, m)
    ensures HostBitsSet(b, m)
  {
    OctetBroadcast(a.o0, m.o0);
    OctetBroadcast(a.o1, m.o1);
    OctetBroadcast(a.o2, m.o2);
    OctetBroadcast(a.o3, m.o3);
    Quad(a.o0 | !m.o0, a.o1 | !m.o1, a.o2 | !m.o2, a.o3 | !m.o3)
  }

  /** Why `new Netmask(address + '/' + netmask)` yields no broadcast text. */
  datatype BlockError =
    | InvalidAddress   // the address is not a dotted quad
    | InvalidMask      // the netmask is not a dotted quad with contiguous one bits
    | NoBroadcast      // a /31 or /32 block, for which this model gives no broadcast address

  /** `computeBroadcastAddress(address, netmask)`: the broadcast address of the block, as text. */
  function ComputeBroadcastAddress(address: string, netmask: string): Result<string, BlockError> {
    match ParseQuad(address)
    case None => Failure(InvalidAddress)
    case Some(a) =>
      match ParseQuad(netmask)
      case None => Failure(InvalidMask)
      case Some(m) =>
        match PrefixLength(m)
        case None => Failure(InvalidMask)
        case Some(p) =>
          if p > 30 then Failure(NoBroadcast)
          else Success(FormatQuad(Broadcast(a, m)))
  }

  /**
   * The computation fails exactly when the address is not a dotted quad, the
   * netmask is not a dotted quad with contiguous one bits, or the block is a
   * /31 or /32; otherwise its text is the dotted quad, without leading zeros,
   * of address OR NOT netmask.
   */
  lemma ComputeBroadcastAddressSpec(address: string, netmask: string)
    ensures var r := ComputeBroadcastAddress(address, netmask);
      && (ParseQuad(address).None? ==> r == Failure(InvalidAddress))
      && (ParseQuad(address).Some? && ParseQuad(netmask).None? ==> r == Failure(InvalidMask))
      && (ParseQuad(address).Some? && ParseQuad(netmask).Some? ==>
            var m := ParseQuad(netmask).value;
            && (PrefixLength(m).None? ==> r == Failure(InvalidMask))
            && (PrefixLength(m).Some? && PrefixLength(m).value > 30 ==> r == Failure(NoBroadcast))
            && (PrefixLength(m).Some? && PrefixLength(m).value <= 30 ==>
                  r.Success? && r.value == FormatQuad(Broadcast(ParseQuad(address).value, m))
                  && ParseQuad(r.value) == Some(Broadcast(ParseQuad(address).value, m))))
  {
    if ParseQuad(address).Some? && ParseQuad(netmask).Some? {
      ParseFormat(Broadcast(ParseQuad(address).value, ParseQuad(netmask).value));
    }
  }

  /**
   * For a contiguous mask of at most 30 bits, the result is the address with
   * its network bits kept and all its host bits set.
   */
  lemma BroadcastOfBlock(a: Quad, p: nat)
    requires p <= 30
    ensures var r := ComputeBroadcastAddress(FormatQuad(a), FormatQuad(PrefixMask(p)));
      && r.Success?
      && ParseQuad(r.value).Some?
      && Network(ParseQuad(r.value).value, PrefixMask(p)) == Network(a, PrefixMask(p))
      && HostBitsSet(ParseQuad(r.value).value, PrefixMask(p))
  {
    ParseFormat(a);
    ParseFormat(PrefixMask(p));
    PrefixLengthOfMask(p);
    ComputeBroadcastAddressSpec(FormatQuad(a), FormatQuad(PrefixMask(p)));
  }

  /** Setting the host bits twice sets them once. */
  lemma BroadcastTwice(a: Quad, m: Quad)
    ensures Broadcast(Broadcast(a, m), m) == Broadcast(a, m)
  {
  }

  /** The broadcast address of a broadcast address under the same mask is itself. */
  lemma BroadcastIdempotent(address: string, netmask: string)
    requires ComputeBroadcastAddress(address, netmask).Success?
    ensures ComputeBroadcastAddress(ComputeBroadcastAddress(address, netmask).value, netmask)
            == ComputeBroadcastAddress(address, netmask)
  {
    var a, m := ParseQuad(address).value, ParseQuad(netmask).value;
    var b := Broadcast(a, m);
    ParseFormat(b);
    BroadcastTwice(a, m);
  }

  /** The dotted-quad text is the four octet texts joined with dots. */
  lemma FormatQuadText(q: Quad)
    ensures FormatQuad(q)
         == (OctetText(q.o0) + ".") + ((OctetText(q.o1) + ".") + ((OctetText(q.o2) + ".") + OctetText(q.o3)))
  {
    var t0, t1, t2, t3 := OctetText(q.o0), OctetText(q.o1), OctetText(q.o2), OctetText(q.o3);
    var parts := [t0, t1, t2, t3];
    assert parts[1..] == [t1, t2, t3];
    assert parts[1..][1..] == [t2, t3];
    assert parts[1..][1..][1..] == [t3];
    assert JoinDots([t3]) == t3;
    assert JoinDots([t2, t3]) == (t2 + ".") + t3;
    assert JoinDots([t1, t2, t3]) == (t1 + ".") + ((t2 + ".") + t3);
  }

  lemma SmallOctetTexts()
    ensures OctetText(0) == "0" && OctetText(1) == "1" && OctetText(5) == "5" && OctetText(7) == "7"
    ensures OctetText(10) == "10"
  {
    assert ToDecimal(10) == "10";
  }

  lemma LargeOctetTexts()
    ensures OctetText(168) == "168" && OctetText(192) == "192"
    ensures OctetText(252) == "252" && OctetText(255) == "255"
  {
    assert ToDecimal(168) == "168";
    assert ToDecimal(192) == "192";
    assert ToDecimal(252) == "252";
    assert ToDecimal(255) == "255";
  }

  lemma TextOfAddress24()
    ensures FormatQuad(Quad(192, 168, 1, 10)) == "192.168.1.10"
  {
    SmallOctetTexts();
    LargeOctetTexts();
    FormatQuadText(Quad(192, 168, 1, 10));
  }

  lemma TextOfMask24()
    ensures FormatQuad(Quad(255, 255, 255, 0)) == "255.255.255.0"
  {
    SmallOctetTexts();
    LargeOctetTexts();
    FormatQuadText(Quad(255, 255, 255, 0));
  }

  lemma TextOfBroadcast24()
    ensures FormatQuad(Quad(192, 168, 1, 255)) == "192.168.1.255"
  {
    SmallOctetTexts();
    LargeOctetTexts();
    FormatQuadText(Quad(192, 168, 1, 255));
  }

  /** 192.168.1.10 in 255.255.255.0 broadcasts to 192.168.1.255. */
  lemma ExampleSlash24()
    ensures ComputeBroadcastAddress("192.168.1.10", "255.255.255.0") == Success("192.168.1.255")
  {
    var a, m := Quad(192, 168, 1, 10), PrefixMask(24);
    assert m == Quad(255, 255, 255, 0);
    assert Broadcast(a, m) == Quad(192, 168, 1, 255);
    TextOfAddress24();
    TextOfMask24();
    TextOfBroadcast24();
    ParseFormat(a);
    ParseFormat(m);
    PrefixLengthOfMask(24);
  }

  lemma TextOfAddress30()
    ensures FormatQuad(Quad(10, 0, 0, 5)) == "10.0.0.5"
  {
    SmallOctetTexts();
    FormatQuadText(Quad(10, 0, 0, 5));
  }

  lemma TextOfMask30()
    ensures FormatQuad(Quad(255, 255, 255, 252)) == "255.255.255.252"
  {
    LargeOctetTexts();
    FormatQuadText(Quad(255, 255, 255, 252));
  }

  lemma TextOfBroadcast30()
    ensures FormatQuad(Quad(10, 0, 0, 7)) == "10.0.0.7"
  {
    SmallOctetTexts();
    FormatQuadText(Quad(10, 0, 0, 7));
  }

  /** 10.0.0.5 in 255.255.255.252 broadcasts to 10.0.0.7. */
  lemma ExampleSlash30()
    ensures ComputeBroadcastAddress("10.0.0.5", "255.255.255.252") == Success("10.0.0.7")
  {
    var a, m := Quad(10, 0, 0, 5), PrefixMask(30);
    assert m == Quad(255, 255, 255, 252);
    assert Broadcast(a, m) == Quad(10, 0, 0, 7);
    TextOfAddress30();
    TextOfMask30();
    TextOfBroadcast30();
    ParseFormat(a);
    ParseFormat(m);
    PrefixLengthOfMask(30);
  }
}

=== FILE: publisher.dfy ===
/**
 * The publisher: a start/stop state machine that owns one UDP socket and one
 * interval timer, and on every tick sends one announcement to the broadcast
 * address of every resolved interface.
 *
 * The socket, the timer and the event emitter are modelled by what the
 * publisher does with them: handles that are created and released, a log of
 * the resource operations in the order they happen, a log of the datagrams
 * handed to the socket and a log of the errors emitted on the 'error' channel.
 */
module Discover {
  import opened Wrappers
  import opened Decimal
  import opened Interfaces
  import opened Announce

  /** A UDP socket handle; `serial` tells sockets of one publisher apart. */
  datatype Socket = Socket(serial: nat)

  /** An interval timer handle. */
  datatype Timer = Timer(serial: nat)

  /** The announcement interval, in milliseconds. */
  const Interval: nat := 2000

  /** An operation on the publisher's socket or timer. */
  datatype ResourceEvent =
    | SocketCreated(socket: Socket)            // dgram.createSocket('udp4')
    | SocketBound(socket: Socket)              // client.bind()
    | BroadcastEnabled(socket: Socket)         // client.setBroadcast(true)
    | IntervalSet(timer: Timer, period: nat)   // setInterval(() => this.sayHello(), period)
    | IntervalCleared(timer: Timer)            // clearInterval(timer)
    | SocketClosed(socket: Socket)             // client.close()

  /** One `client.send(message, 0, message.length, port, destination, ...)`. */
  datatype Datagram = Datagram(socket: Socket, destination: string, port: int, payload: Payload)

  /** What the publisher throws or emits. */
  datatype Error =
    | NameContainsColon              // the constructor's 'name should not contain ":"'
    | NoInterfacesSet                // sayHello: 'No network interfaces set--was the service started?'
    | ClientNotInitialized           // sayHello: 'Client not initialized--was the service started?'
    | ResolveFailed(cause: ResolveError)  // prepareInterfaces threw inside start
    | Transport(code: string)        // an error of the socket

  /**
   * What the socket does with one send: it delivers it, reports a failure to
   * the send callback later, or throws at the call.
   */
  datatype SendFate = Delivered | FailsLater(code: string) | ThrowsNow(code: string)

  /** How the promise returned by `start` settles. */
  datatype StartOutcome =
    | Resolved            // already running: resolved at once
    | AwaitingListening   // resolved by the socket's 'listening' event
    | Rejected(error: Error)

  /** Whether `sayHello` returned or threw. */
  datatype HelloOutcome = Completed | Thrown(error: Error)

  /** The position of the first of the sends `i` to `n - 1` that throws at the call, or `n`. */
  function FirstThrow(fate: nat -> SendFate, i: nat, n: nat): (k: nat)
    requires i <= n
    ensures i <= k <= n
    ensures forall j | i <= j < k :: !fate(j).ThrowsNow?
    ensures k < n ==> fate(k).ThrowsNow?
    decreases n - i
  {
    if i == n then n else if fate(i).ThrowsNow? then i else FirstThrow(fate, i + 1, n)
  }

  /** The errors the send callbacks of the first `k` sends emit, in send order. */
  function SendErrors(fate: nat -> SendFate, k: nat): seq<Error>
    decreases k
  {
    if k == 0 then []
    else SendErrors(fate, k - 1) + (if fate(k - 1).FailsLater? then [Transport(fate(k - 1).code)] else [])
  }

  /** Everything one `sayHello` over `n` interfaces emits: the send failures, then a caught exception. */
  function TickErrors(fate: nat -> SendFate, n: nat): seq<Error> {
    var k := FirstThrow(fate, 0, n);
    SendErrors(fate, k) + (if k < n then [Transport(fate(k).code)] else [])
  }

  /** How many of the first `k` sends fail in their callbacks. */
  function FailCount(fate: nat -> SendFate, k: nat): nat
    decreases k
  {
    if k == 0 then 0 else FailCount(fate, k - 1) + (if fate(k - 1).FailsLater? then 1 else 0)
  }

  /**
   * Every send that fails in its callback emits its own error, at the position
   * given by the failed sends before it, and every error emitted belongs to
   * such a send: one error per failed send, in send order, none when no send
   * fails.
   */
  lemma {:induction false} SendErrorsReportFailures(fate: nat -> SendFate, k: nat)
    ensures |SendErrors(fate, k)| == FailCount(fate, k) <= k
    ensures (forall j | 0 <= j < k :: !fate(j).FailsLater?) <==> SendErrors(fate, k) == []
    ensures forall j | 0 <= j < k && fate(j).FailsLater? :: Transport(fate(j).code) in SendErrors(fate, k)
    ensures forall j | 0 <= j < k && fate(j).FailsLater? ::
      FailCount(fate, j) < |SendErrors(fate, k)| && SendErrors(fate, k)[FailCount(fate, j)] == Transport(fate(j).code)
    ensures forall e | e in SendErrors(fate, k) :: e.Transport? && exists j | 0 <= j < k :: fate(j) == FailsLater(e.code)
    decreases k
  {
    if k > 0 {
      SendErrorsReportFailures(fate, k - 1);
      var prev, errs := SendErrors(fate, k - 1), SendErrors(fate, k);
      if fate(k - 1).FailsLater? {
        assert errs == prev + [Transport(fate(k - 1).code)];
        assert errs[|errs| - 1] == Transport(fate(k - 1).code);
      } else {
        assert errs == prev;
      }
    }
    SendErrorsPositions(fate, k);
    forall j | 0 <= j < k && fate(j).FailsLater? ensures Transport(fate(j).code) in SendErrors(fate, k) {
      assert SendErrors(fate, k)[FailCount(fate, j)] == Transport(fate(j).code);
    }
  }

  /** The error of a failed send sits after exactly the errors of the failed sends before it. */
  lemma {:induction false} SendErrorsPositions(fate: nat -> SendFate, k: nat)
    ensures |SendErrors(fate, k)| == FailCount(fate, k)
    ensures forall j | 0 <= j < k && fate(j).FailsLater? ::
      FailCount(fate, j) < |SendErrors(fate, k)| && SendErrors(fate, k)[FailCount(fate, j)] == Transport(fate(j).code)
    decreases k
  {
    if k > 0 {
      SendErrorsPositions(fate, k - 1);
      var prev, errs := SendErrors(fate, k - 1), SendErrors(fate, k);
      assert prev <= errs;
      forall j | 0 <= j < k && fate(j).FailsLater?
        ensures FailCount(fate, j) < |errs| && errs[FailCount(fate, j)] == Transport(fate(j).code)
      {
        if j < k - 1 {
          assert errs[FailCount(fate, j)] == prev[FailCount(fate, j)];
        }
      }
    }
  }

  /**
   * Whether a send fails later does not change how many sends a tick makes:
   * only a send that throws at the call stops the loop.
   */
  lemma {:induction false} FailuresDoNotStopSends(fate: nat -> SendFate, other: nat -> SendFate, i: nat, n: nat)
    requires i <= n
    requires forall j: nat :: fate(j).ThrowsNow? <==> other(j).ThrowsNow?
    ensures FirstThrow(fate, i, n) == FirstThrow(other, i, n)
    decreases n - i
  {
    if i < n && !fate(i).ThrowsNow? {
      FailuresDoNotStopSends(fate, other, i + 1, n);
    }
  }

  /** Loop-exit step of `SendRound`: the send at `i` throws, so it is the tick's first throw. */
  lemma ThrowEndsTick(fate: nat -> SendFate, i: nat, n: nat)
    requires i < n && fate(i).ThrowsNow?
    requires FirstThrow(fate, 0, n) == FirstThrow(fate, i, n)
    ensures FirstThrow(fate, 0, n) == i
    ensures TickErrors(fate, n) == SendErrors(fate, i) + [Transport(fate(i).code)]
  {
  }

  /** Loop-exit step of `SendRound`: the loop ran to the end, so no send threw. */
  lemma NoThrowTick(fate: nat -> SendFate, n: nat)
    requires FirstThrow(fate, 0, n) == FirstThrow(fate, n, n)
    ensures FirstThrow(fate, 0, n) == n
    ensures TickErrors(fate, n) == SendErrors(fate, n)
  {
  }

  class Publisher {
    const id: string
    const namespace: string
    const name: string
    const port: int
    const commPort: Option<int>
    const path: string := "/"
    const interval: nat := Interval

    var running: bool
    var interfaces: Option<seq<Interface>>
    var timer: Option<Timer>
    var client: Option<Socket>

    var socketsCreated: nat           // sockets this publisher has created so far
    var timersCreated: nat            // timers this publisher has scheduled so far
    var resources: seq<ResourceEvent> // socket and timer operations, in order
    var sent: seq<Datagram>           // datagrams handed to the socket, in order
    var errors: seq<Error>            // errors emitted on the 'error' channel, in order

    /**
     * The lifecycle invariant: a stopped publisher holds neither socket nor
     * timer; a timer exists only beside a socket; a socket only while running
     * and with interfaces resolved; and a running publisher has a socket unless
     * resolving its interfaces threw.
     */
    ghost predicate Valid()
      reads this
    {
      && ':' !in name
      && (!running ==> client.None? && timer.None?)
      && (timer.Some? ==> client.Some?)
      && (client.Some? ==> running && interfaces.Some?)
      && (running ==> client.Some? || interfaces.None?)
      && (client.Some? ==> client.value.serial < socketsCreated)
      && (timer.Some? ==> timer.value.serial < timersCreated)
    }

    constructor (namespace: string, name: string, port: int, commPort: Option<int>, id: string)
      requires ':' !in name
      ensures Valid()
      ensures this.namespace == namespace && this.name == name && this.port == port
      ensures this.commPort == commPort && this.id == id
      ensures !running && interfaces.None? && timer.None? && client.None?
      ensures socketsCreated == 0 && timersCreated == 0
      ensures resources == [] && sent == [] && errors == []
    {
      this.namespace := namespace;
      this.name := name;
      this.port := port;
      this.commPort := commPort;
      this.id := id;
      running := false;
      interfaces := None;
      timer := None;
      client := None;
      socketsCreated := 0;
      timersCreated := 0;
      resources := [];
      sent := [];
      errors := [];
    }

    /** `new Publisher(namespace, name, port, commPort)`, which throws when `name` contains ':'. */
    static method Create(namespace: string, name: string, port: int, commPort: Option<int>, id: string)
      returns (r: Result<Publisher, Error>)
      ensures r.Failure? <==> ':' in name
      ensures r.Failure? ==> r.error == NameContainsColon
      ensures r.Success? ==> fresh(r.value) && r.value.Valid()
      ensures r.Success? ==> r.value.namespace == namespace && r.value.name == name && r.value.port == port
      ensures r.Success? ==> r.value.commPort == commPort && r.value.id == id
      ensures r.Success? ==> !r.value.running && r.value.interfaces.None?
      ensures r.Success? ==> r.value.client.None? && r.value.timer.None?
      ensures r.Success? ==> r.value.socketsCreated == 0 && r.value.timersCreated == 0
      ensures r.Success? ==> r.value.sent == [] && r.value.errors == [] && r.value.resources == []
    {
      if ':' in name {
        return Failure(NameContainsColon);
      }
      var p := new Publisher(namespace, name, port, commPort, id);
      r := Success(p);
    }

    /** `buildMessage(ip)` at wall-clock time `now` on host `host`. */
    function BuildMessage(now: int, host: string, ip: string): Payload {
      Serialize(Message(now, id, namespace, name, host, ip, port, commPort, path))
    }

    /**
     * A receiver reads back from the message the prefix and a record whose
     * `ip` is the argument and whose other fields come from the publisher.
     * The message depends only on fields that never change.
     */
    lemma BuildMessageParses(now: int, host: string, ip: string)
      ensures BuildMessage(now, host, ip).prefix == Prefix
      ensures Parse(BuildMessage(now, host, ip)) == Some(Message(now, id, namespace, name, host, ip, port, commPort, "/"))
    {
      ParseSerialize(Message(now, id, namespace, name, host, ip, port, commPort, path));
    }

    /** The datagrams the first `k` iterations of `sayHello`'s loop hand to socket `s`. */
    function Announcements(ifaces: seq<Interface>, s: Socket, clock: nat -> int, host: string, k: nat): seq<Datagram>
      requires k <= |ifaces|
      decreases k
    {
      if k == 0 then []
      else
        Announcements(ifaces, s, clock, host, k - 1)
        + [Datagram(s, ifaces[k - 1].broadcast, DiscoveryPort, BuildMessage(clock(k - 1), host, ifaces[k - 1].address))]
    }

    /** The datagrams one `sayHello` hands to socket `s`: every interface up to the first send that throws. */
    function TickSends(ifaces: seq<Interface>, s: Socket, clock: nat -> int, host: string, fate: nat -> SendFate): seq<Datagram> {
      Announcements(ifaces, s, clock, host, FirstThrow(fate, 0, |ifaces|))
    }

    /**
     * One datagram per interface, in list order, to that interface's broadcast
     * address on the discovery port, announcing that interface's address.
     */
    lemma {:induction false} AnnouncementsPerInterface(ifaces: seq<Interface>, s: Socket, clock: nat -> int, host: string, k: nat)
      requires k <= |ifaces|
      ensures var a := Announcements(ifaces, s, clock, host, k);
        && |a| == k
        && forall i | 0 <= i < k ::
             && a[i].socket == s
             && a[i].destination == ifaces[i].broadcast
             && a[i].port == DiscoveryPort
             && Parse(a[i].payload) == Some(Message(clock(i), id, namespace, name, host, ifaces[i].address, port, commPort, "/"))
      decreases k
    {
      if k > 0 {
        AnnouncementsPerInterface(ifaces, s, clock, host, k - 1);
        BuildMessageParses(clock(k - 1), host, ifaces[k - 1].address);
      }
    }

    /**
     * A send that throws at the call ends the tick: the sends before it are
     * made and no later one is, and its exception is the last error in send
     * order, after the callback errors of the sends before it.
     */
    lemma ThrowingSendEndsTick(ifaces: seq<Interface>, s: Socket, clock: nat -> int, host: string, fate: nat -> SendFate, i: nat)
      requires i < |ifaces| && fate(i).ThrowsNow?
      requires forall j | 0 <= j < i :: !fate(j).ThrowsNow?
      ensures TickSends(ifaces, s, clock, host, fate) == Announcements(ifaces, s, clock, host, i)
      ensures |TickSends(ifaces, s, clock, host, fate)| == i
      ensures var errs := TickErrors(fate, |ifaces|);
        && |errs| == FailCount(fate, i) + 1
        && errs[|errs| - 1] == Transport(fate(i).code)
        && errs[..|errs| - 1] == SendErrors(fate, i)
    {
      var n := |ifaces|;
      assert FirstThrow(fate, 0, n) == i;
      AnnouncementsPerInterface(ifaces, s, clock, host, i);
      SendErrorsReportFailures(fate, i);
      var errs := TickErrors(fate, n);
      assert errs == SendErrors(fate, i) + [Transport(fate(i).code)];
      assert errs[..|errs| - 1] == SendErrors(fate, i);
    }

    /**
     * When no send throws at the call, every interface gets its datagram and
     * the tick emits exactly one error per send that fails in its callback.
     */
    lemma NoThrowSendsAll(ifaces: seq<Interface>, s: Socket, clock: nat -> int, host: string, fate: nat -> SendFate)
      requires forall j | 0 <= j < |ifaces| :: !fate(j).ThrowsNow?
      ensures TickSends(ifaces, s, clock, host, fate) == Announcements(ifaces, s, clock, host, |ifaces|)
      ensures |TickSends(ifaces, s, clock, host, fate)| == |ifaces|
      ensures TickErrors(fate, |ifaces|) == SendErrors(fate, |ifaces|)
      ensures |TickErrors(fate, |ifaces|)| == FailCount(fate, |ifaces|)
      ensures forall j | 0 <= j < |ifaces| && fate(j).FailsLater? :: Transport(fate(j).code) in TickErrors(fate, |ifaces|)
    {
      var n := |ifaces|;
      assert FirstThrow(fate, 0, n) == n;
      AnnouncementsPerInterface(ifaces, s, clock, host, n);
      SendErrorsReportFailures(fate, n);
      assert TickErrors(fate, n) == SendErrors(fate, n);
    }

    /**
     * With two interfaces, one send failing in its callback and the other
     * delivered, the tick still sends to both and emits exactly one error.
     */
    lemma OneFailedSendOfTwo(ifaces: seq<Interface>, s: Socket, clock: nat -> int, host: string, fate: nat -> SendFate, code: string)
      requires |ifaces| == 2
      requires (fate(0) == FailsLater(code) && fate(1) == Delivered) || (fate(0) == Delivered && fate(1) == FailsLater(code))
      ensures |TickSends(ifaces, s, clock, host, fate)| == 2
      ensures TickSends(ifaces, s, clock, host, fate)[1].destination == ifaces[1].broadcast
      ensures TickErrors(fate, 2) == [Transport(code)]
    {
      assert FirstThrow(fate, 0, 2) == 2;
      AnnouncementsPerInterface(ifaces, s, clock, host, 2);
    }

    /**
     * The loop of `sayHello()` over `ifaces` on socket `s`: the datagrams it
     * hands to the socket and the errors it emits. A send that fails in its
     * callback emits an error and the loop goes on; a send that throws at the
     * call ends the loop, and the catch block emits the exception.
     */
    method SendRound(ifaces: seq<Interface>, s: Socket, clock: nat -> int, host: string, fate: nat -> SendFate)
      returns (batch: seq<Datagram>, emitted: seq<Error>)
      ensures batch == TickSends(ifaces, s, clock, host, fate)
      ensures emitted == TickErrors(fate, |ifaces|)
    {
      var n := |ifaces|;
      batch, emitted := [], [];
      var i := 0;
      while i < n
        invariant 0 <= i <= n
        invariant FirstThrow(fate, 0, n) == FirstThrow(fate, i, n)
        invariant batch == Announcements(ifaces, s, clock, host, i)
        invariant emitted == SendErrors(fate, i)
        decreases n - i
      {
        if fate(i).ThrowsNow? {
          break;
        }
        var message := BuildMessage(clock(i), host, ifaces[i].address);
        batch := batch + [Datagram(s, ifaces[i].broadcast, DiscoveryPort, message)];
        if fate(i).FailsLater? {
          emitted := emitted + [Transport(fate(i).code)];
        }
        i := i + 1;
      }
      if i < n {
        // the send threw: the catch block emits the exception and the loop is over
        ThrowEndsTick(fate, i, n);
        emitted := emitted + [Transport(fate(i).code)];
      } else {
        NoThrowTick(fate, n);
      }
    }

    /**
     * `sayHello()`: throws when the interfaces or the socket are missing;
     * otherwise hands one round of announcements to the socket and emits
     * what that round reports.
     */
    method SayHello(clock: nat -> int, host: string, fate: nat -> SendFate) returns (outcome: HelloOutcome)
      requires Valid()
      modifies this`sent, this`errors
      ensures Valid()
      ensures interfaces.None? ==> outcome == Thrown(NoInterfacesSet) && sent == old(sent) && errors == old(errors)
      ensures interfaces.Some? && client.None? ==>
        outcome == Thrown(ClientNotInitialized) && sent == old(sent) && errors == old(errors)
      ensures interfaces.Some? && client.Some? ==>
        && outcome == Completed
        && sent == old(sent) + TickSends(interfaces.value, client.value, clock, host, fate)
        && errors == old(errors) + TickErrors(fate, |interfaces.value|)
    {
      if interfaces.None? {
        return Thrown(NoInterfacesSet);
      }
      if client.None? {
        return Thrown(ClientNotInitialized);
      }
      var batch, emitted := SendRound(interfaces.value, client.value, clock, host, fate);
      sent := sent + batch;
      errors := errors + emitted;
      outcome := Completed;
    }

    /**
     * `start()`: resolves at once when running. Otherwise it marks the
     * publisher running, resolves the interfaces unless a list is already
     * there, and creates and binds a fresh socket; the timer and the first
     * announcement wait for the socket's 'listening' event. When resolving the
     * interfaces throws, the promise rejects with the publisher left running
     * and without a socket.
     */
    method Start(table: InterfaceTable) returns (outcome: StartOutcome)
      requires Valid()
      modifies this
      ensures Valid()
      ensures old(running) ==> outcome == Resolved && unchanged(this)
      ensures !old(running) ==>
        && running && timer.None? && timersCreated == old(timersCreated)
        && sent == old(sent) && errors == old(errors)
      ensures !old(running) && old(interfaces).None? && PrepareInterfaces(table).Failure? ==>
        && outcome == Rejected(ResolveFailed(PrepareInterfaces(table).error))
        && interfaces.None? && client.None?
        && socketsCreated == old(socketsCreated) && resources == old(resources)
      ensures !old(running) && (old(interfaces).Some? || PrepareInterfaces(table).Success?) ==>
        && outcome == AwaitingListening
        && interfaces == (if old(interfaces).Some? then old(interfaces) else Some(PrepareInterfaces(table).value))
        && client == Some(Socket(old(socketsCreated)))
        && socketsCreated == old(socketsCreated) + 1
        && resources == old(resources) + [SocketCreated(Socket(old(socketsCreated))), SocketBound(Socket(old(socketsCreated)))]
    {
      if running {
        return Resolved;
      }
      running := true;
      if interfaces.None? {
        var resolved := PrepareInterfaces(table);
        if resolved.Failure? {
          return Rejected(ResolveFailed(resolved.error));
        }
        interfaces := Some(resolved.value);
      }
      var s := Socket(socketsCreated);
      socketsCreated := socketsCreated + 1;
      client := Some(s);
      resources := resources + [SocketCreated(s), SocketBound(s)];
      outcome := AwaitingListening;
    }

    /**
     * The socket's 'listening' event: enable broadcast, schedule the
     * interval, announce once at once, and resolve `start`. The event comes
     * once, for the current socket, before any timer exists.
     */
    method OnListening(clock: nat -> int, host: string, fate: nat -> SendFate)
      requires Valid() && client.Some? && timer.None?
      modifies this`timer, this`timersCreated, this`resources, this`sent, this`errors
      ensures Valid()
      ensures timer == Some(Timer(old(timersCreated))) && timersCreated == old(timersCreated) + 1
      ensures resources == old(resources) + [BroadcastEnabled(client.value), IntervalSet(Timer(old(timersCreated)), Interval)]
      ensures sent == old(sent) + TickSends(interfaces.value, client.value, clock, host, fate)
      ensures errors == old(errors) + TickErrors(fate, |interfaces.value|)
    {
      var s := client.value;
      resources := resources + [BroadcastEnabled(s)];
      var t := Timer(timersCreated);
      timersCreated := timersCreated + 1;
      timer := Some(t);
      resources := resources + [IntervalSet(t, interval)];
      var hello := SayHello(clock, host, fate);
    }

    /** The interval timer fires: one more `sayHello()`. */
    method OnInterval(clock: nat -> int, host: string, fate: nat -> SendFate)
      requires Valid() && timer.Some?
      modifies this`sent, this`errors
      ensures Valid()
      ensures sent == old(sent) + TickSends(interfaces.value, client.value, clock, host, fate)
      ensures errors == old(errors) + TickErrors(fate, |interfaces.value|)
    {
      var hello := SayHello(clock, host, fate);
    }

    /** The socket's 'error' event, re-emitted on the publisher's channel; a bind failure arrives here. */
    method OnClientError(code: string)
      requires Valid()
      modifies this`errors
      ensures Valid()
      ensures errors == old(errors) + [Transport(code)]
    {
      errors := errors + [Transport(code)];
    }

    /**
     * `stop()`: nothing when not running; otherwise marks the publisher
     * stopped, clears the timer and then closes the socket.
     */
    method Stop()
      requires Valid()
      modifies this`running, this`timer, this`client, this`resources
      ensures Valid()
      ensures !running && timer.None? && client.None?
      ensures !old(running) ==> unchanged(this)
      ensures resources == old(resources)
        + (if old(timer).Some? then [IntervalCleared(old(timer).value)] else [])
        + (if old(client).Some? then [SocketClosed(old(client).value)] else [])
    {
      if !running {
        return;
      }
      running := false;
      if timer.Some? {
        resources := resources + [IntervalCleared(timer.value)];
        timer := None;
      }
      if client.Some? {
        resources := resources + [SocketClosed(client.value)];
        client := None;
      }
    }
  }

  /** The name a silent publisher announces: the caller's name, '@', and the port. */
  function SilentName(name: string, port: int): string {
    name + "@" + IntToString(port)
  }

  /** The port suffix adds no ':', so the silent name has one exactly when the caller's name does. */
  lemma SilentNameColon(name: string, port: int)
    ensures ':' in SilentName(name, port) <==> ':' in name
  {
    var suffix := "@" + IntToString(port);
    assert SilentName(name, port) == name + suffix;
    forall k | 0 <= k < |suffix|
      ensures suffix[k] != ':'
    {
      if k > 0 {
        assert suffix[k] == IntToString(port)[k - 1];
      }
    }
  }

  /**
   * `newSilentPublisher(namespace, name, port)`: a publisher named
   * `name@port` with no communication port, started at once, its errors and
   * the outcome of `start` discarded. The constructor's throw is not caught.
   */
  method NewSilentPublisher(namespace: string, name: string, port: int, id: string, table: InterfaceTable)
    returns (r: Result<Publisher, Error>)
    ensures r.Failure? <==> ':' in name
    ensures r.Failure? ==> r.error == NameContainsColon
    ensures r.Success? ==> fresh(r.value) && r.value.Valid() && r.value.running
    ensures r.Success? ==> r.value.namespace == namespace && r.value.name == SilentName(name, port)
    ensures r.Success? ==> r.value.port == port && r.value.commPort.None? && r.value.id == id
    ensures r.Success? ==> r.value.sent == [] && r.value.errors == [] && r.value.timer.None?
    ensures r.Success? && PrepareInterfaces(table).Success? ==>
      && r.value.interfaces == Some(PrepareInterfaces(table).value)
      && r.value.client == Some(Socket(0))
      && r.value.resources == [SocketCreated(Socket(0)), SocketBound(Socket(0))]
    ensures r.Success? && PrepareInterfaces(table).Failure? ==>
      r.value.interfaces.None? && r.value.client.None? && r.value.resources == []
  {
    SilentNameColon(name, port);
    r := Publisher.Create(namespace, SilentName(name, port), port, None, id);
    if r.Success? {
      var ignored := r.value.Start(table);
    }
  }
}

=== FILE: wrappers.dfy ===
/** Failure-compatible wrappers used throughout the model. */
module Wrappers {

  /** A value that may be absent (TypeScript's `T | undefined`). */
  datatype Option<+T> = None | Some(value: T)

  /** A computation that either yields a value or throws an error. */
  datatype Result<+T, +E> = Success(value: T) | Failure(error: E) {
    predicate IsFailure() {
      Failure?
    }

    function PropagateFailure<U>(): Result<U, E>
      requires Failure?
    {
      Failure(error)
    }

    function Extract(): T
      requires Success?
    {
      value
    }
  }
}
